=== FILE: README.md ===
# APK middleware replacement server: the processing index and the task pipeline

The server (`py_server_demo.py`) receives an Android APK, a JSON object
`so_files` that maps native-library names to download URLs, and a target ABI
(`arm64-v8a` or `armeabi-v7a`). A background task runs these steps:

1. decode the APK;
2. download every component whose URL is not blank, and check its architecture
   with the `file` command;
3. only then copy all the components into `lib/<abi>`;
4. rebuild, align and sign the APK;
5. record the result in `index.json`. This index is keyed by the MD5 of the
   original APK and keeps at most ten results per key.

This project models two parts of that server in Dafny, as pure functions over
immutable data:

* **The MD5-keyed processing index** (`processing_index.dfy`, `entries.dfy`,
  `md5_key.dfy`). It covers:
  * the legacy-shape migration done on load;
  * `add_task_to_index`, with its stable newest-first retention of ten entries;
  * `get_latest_cached_task`, with its optional architecture filter and
    Python's first-maximum rule;
  * the check of the 32-hex-digit key and its lower-casing.
* **`process_apk_task` as a state machine** (`pipeline.dfy`, `tasks.dfy`,
  `architecture.dfy`, `text.dfy`). The external tools are oracles held in a
  `Tools` value:
  * `decodeOk`: the decode succeeded;
  * `download`: the HTTP fetch of a URL;
  * `describe`: what `file` says about a file's contents. The model itself
    builds the rest of the `file` output: the download path, then `": "`,
    then the description. The download path is
    `workdir/temp/{pkg_name}_{file_md5}/downloaded_{slot}` (see below). A
    package name starting with `/` makes `{pkg_name}_{file_md5}` absolute,
    and it then replaces `workdir/temp` (`Pipeline.WorkPathPlacement`);
  * `build`, `align`, `sign`: the packaging tools;
  * `md5`: the digest;
  * `storedIndex`: the stored `index.json`;
  * `saveError`: a failed save;
  * `clock`: the clock readings.

  A run returns:
  * the task record;
  * the final `lib/<abi>` directory;
  * the index on disk;
  * a trace of observable steps (`Started`, `Decoded`, `Downloaded`, `Verified`,
    `Copied`, `Built`, `Aligned`, `Signed`, `IndexSaved`, `Completed`,
    `FailedWith`). The ordering properties are stated over this trace.

Whole-run properties are in `pipeline_properties.dfy` (status machine, index
write) and `replacement_properties.dfy` (verify-then-commit). The pre-task
checks of `/upload`, `/exist_pkg` and `/check_md5` are in `admission.dfy`.

Three behaviours of the code are worth stating plainly:

* **No alias resolution.** The index is keyed only by the original APK's MD5
  and is looked up only by that exact key. There is no derived-hash or alias
  resolution.
* **Ties go to the first entry.** When several entries share the latest
  timestamp, `get_latest_cached_task` and `/check_md5` return the FIRST such
  entry in list order, because Python's `max` returns the first maximum.
* **Blank URLs are rejected late.** `/upload` only checks that `so_files` is
  non-empty, so an object whose every URL is blank is accepted. Its task is
  created and fails inside the pipeline, after the decode, with "No valid SO
  files to process. All URLs are empty."
  (`Admission.BlankOnlyUploadFailsLate`).

The architecture check runs `file` on the download path without `-b`, so the
text it classifies begins with that path. The path holds the package name and
the component name, and these can decide the verdict (see "## Findings"). The
pipeline keeps the check as written. Its statements therefore describe the
server as it runs. `Architecture.NeutralPathAgrees` states when the verdict
matches the content-only check.

Component names are joined into paths with `pathlib` (`work_path /
f"downloaded_{name}"`, `lib_path / name`), which splits them at `/` and drops
empty and `.` segments (`paths.dfy`). The model follows this:

* A name's **slot** is its part before the first `/`. This is the file that
  `lib/<abi>` gets, and the download goes to `downloaded_{slot}`. So
  `libgame.so/` and `libgame.so/.` behave like `libgame.so`
  (`Pipeline.TrailingSeparatorsIgnored`).
* A download fails, whatever the server answers, in three cases:
  * a real segment follows the slot, because the `downloaded_...` directory
    never exists;
  * the name holds NUL;
  * `downloaded_{slot}` is longer than 255 bytes in UTF-8.
* A name whose slot is empty, `.` or `..` names a directory that exists, so
  `md5sum` fails on it, after the architecture check, with
  `[Errno 21] Is a directory`. That directory is one of three:
  * `lib/<abi>` itself, for an empty or `.` slot;
  * its parent, for `..`;
  * the root, for a name starting with `/`. Such a name is absolute and
    replaces `lib/<abi>`. Its root is `//` when it has exactly two leading
    separators, and `/` otherwise (`Pipeline.AbsoluteNameReadsRoot`).
* Two names with one slot (`libx.so` and `libx.so/`) share it, and the one
  copied last wins (`Pipeline.Owner`).

## Model

| member | source | states |
|---|---|---|
| Text.ContainsIff | py_server_demo.py:168-171 | the `in` substring test used by the classifier holds exactly when the word occurs at some position of the output |
| Md5Key.NormalizeMd5 | py_server_demo.py:775-781 | a key is accepted iff it has 32 characters, all hex digits in either case; the accepted key is all lower-case hex and every digit keeps its value |
| Md5Key.CanonicalIsFixedPoint | py_server_demo.py:885-892 | a key already in lower-case hex form is accepted unchanged |
| Md5Key.NormalizeIdempotent | py_server_demo.py:775-781 | the lower-cased key is itself accepted and is its own normal form |
| Md5Key.NormalizeIgnoresCase | py_server_demo.py:885-892 | two spellings differing only in letter case are accepted or rejected together and give the same key |
| Architecture.ParseArch | py_server_demo.py:533-537 | exactly the two ABI names pass the endpoint check, and the parsed ABI prints back as the name given |
| Architecture.ClassifyIff | py_server_demo.py:165-174 | the lower-cased `file` output gives arm64-v8a iff "aarch64" or "arm64" occurs in it, armeabi-v7a iff neither occurs but "arm" does, and nothing iff neither "aarch64" nor "arm" occurs |
| Architecture.DetectReadsPath | py_server_demo.py:156-178 | `file` run on a path gives arm64-v8a iff the path or the description names "aarch64" or "arm64" in any case; it gives armeabi-v7a iff neither does but one of them contains "arm"; otherwise it gives nothing |
| Architecture.DetectByContentIff | py_server_demo.py:165-174 | classifying the description alone gives arm64-v8a, armeabi-v7a or nothing by the same words, looking only at the contents |
| Architecture.NeutralPathAgrees | py_server_demo.py:159-171 | when the path names no ARM ABI, the check as written and the content-only check agree for every description |
| Architecture.PathSwaysDetection | py_server_demo.py:159-171 | an ARMv7 library stored as `libarm64.so` is classified arm64-v8a by the check as written, and armeabi-v7a by its contents |
| Architecture.ClassifyAgreesWithAliases | py_server_demo.py:37-40 | any 64-bit word of the architecture table classifies as arm64-v8a, and a 32-bit word without a 64-bit one classifies as armeabi-v7a |
| Entries.SortByTimeDesc | py_server_demo.py:133 | the sort is a permutation, ordered newest first (a missing timestamp counts as 0), and stable: the entries of each timestamp keep their relative order |
| Entries.LatestPosition | py_server_demo.py:115-119 | `max` by timestamp picks an entry whose timestamp is at least every other's, and every earlier entry is strictly older, so ties go to the first |
| ProcessingIndex.Migrate | py_server_demo.py:78-87 | a record value becomes a one-element list, a list value is kept, any other value is dropped; no key is added |
| ProcessingIndex.MigratePersist | py_server_demo.py:78-94 | loading what was saved gives back the same index, so migrating a migrated index changes nothing |
| ProcessingIndex.MigrateIdempotent | py_server_demo.py:78-87 | migrating, saving and migrating again equals migrating once |
| ProcessingIndex.Retain | py_server_demo.py:130-134 | a list of at most ten entries is kept as it is; a longer one is cut to exactly ten, chosen from its own entries |
| ProcessingIndex.AddTask | py_server_demo.py:122-134 | only the given key changes, and it is added if new; the list stays at most ten long; with fewer than ten entries before, the new entry is appended after the earlier ones, which stay in order |
| ProcessingIndex.AddTaskRetention | py_server_demo.py:130-134 | when the list overflows, exactly ten entries remain, newest first; for each timestamp the kept entries are the earliest of that timestamp in their prior order; an entry is dropped only if every kept entry is at least as new |
| ProcessingIndex.Candidates | py_server_demo.py:111-112 | the architecture filter keeps exactly the entries tagged with that architecture; an absent or empty architecture keeps every entry |
| ProcessingIndex.CandidatesAppend | py_server_demo.py:112 | the filter works piece by piece over a concatenation, so it keeps list order and repeated entries |
| ProcessingIndex.CandidatePosition | py_server_demo.py:112 | each candidate comes from a position of the stored list, and the candidates before it are exactly the selected entries before that position |
| ProcessingIndex.GetLatestCachedTask | py_server_demo.py:97-119 | the result is None iff the key is absent or no entry passes the filter; otherwise it is a stored entry that passes the filter, with a timestamp at least every candidate's; in the stored list it sits at a position that no earlier selected entry matches or exceeds in timestamp |
| ProcessingIndex.RetainKeepsEarliest | py_server_demo.py:130-134 | for every timestamp, the entries of that timestamp that survive the cut to ten are the earliest ones of that timestamp, in their prior order (the stable descending sort) |
| ProcessingIndex.RetainDropsOnlyOlder | py_server_demo.py:130-134 | an entry of some timestamp is cut only when every one of the ten kept entries is at least that new |
| ProcessingIndex.NewestKept | py_server_demo.py:128-134 | an entry newer than every earlier one always survives the cut, and every other survivor is older |
| ProcessingIndex.AddTaskThenLatest | py_server_demo.py:122-134 | an entry newer than every entry already stored under its key survives retention and becomes that key's latest cached task under any filter it passes |
| Tasks.NewTask | py_server_demo.py:606-614 | a created task is PENDING, has only its request fields set, and carries the given id, file name, package, digest and ABI |
| Pipeline.ValidNamesMembers | py_server_demo.py:335 | a name is listed as valid exactly when some entry with that name has a non-blank URL |
| Pipeline.VerifyAllOkKeys | py_server_demo.py:342-396 | a completed verification loop holds a file and both digests for exactly the valid names |
| Pipeline.VerifyAllOkSteps | py_server_demo.py:342-396 | a completed loop downloaded and verified every valid entry, in key order, and every valid entry passed its check |
| Pipeline.AllBlankNoValidNames | py_server_demo.py:335 | an object whose every URL is blank has no valid entry |
| Paths.TrailingDropped | py_server_demo.py:353 | separators and `.` segments after a plain name leave the name as the slot, and they are all that follows it |
| Paths.RealSegmentKept | py_server_demo.py:353 | a segment that is neither empty nor `.` (a name, or `..`) after a `/` is not dropped by the join |
| Pipeline.CheckComponentOkIff | py_server_demo.py:350-379 | a component passes iff its download is stored, `file` classifies it as the requested ABI, and its slot does not name a directory (empty, `.` or `..`); what passes is the download |
| Pipeline.AbsoluteNameReadsRoot | py_server_demo.py:350-379 | a name starting with `/` never passes. It fails on a directory exactly when its download and `file` succeed with the requested ABI, and that directory is the root: `//` for exactly two leading separators, `/` otherwise |
| Pipeline.WorkPathPlacement | py_server_demo.py:308-313 | the work directory is under `workdir/temp` exactly when the package name does not start with `/`, and it always ends with `{pkg_name}_{file_md5}` |
| Pipeline.NestedNameFails | py_server_demo.py:180-192 | a name with a real segment (a name, or `..`) after a `/` fails its download, whatever the server answers |
| Pipeline.UnstorableNameFails | py_server_demo.py:180-192 | a name holding NUL, or a plain name whose `downloaded_` file name exceeds 255 bytes, fails its download, whatever the server answers |
| Pipeline.TrailingSeparatorsIgnored | py_server_demo.py:350-379 | a name followed by separators and `.` segments has the plain name as its slot, the same download and path, and passes its check iff the plain name does |
| Pipeline.Arm64NamePasses | py_server_demo.py:353-372 | a component whose name says "arm64" or "aarch64" passes an arm64-v8a check whenever `file` describes it at all |
| Pipeline.Arm64PackageRejectsArmv7 | py_server_demo.py:308-372 | with a package name that says "arm64" or "aarch64", every downloaded component of an armeabi-v7a request fails as an arm64-v8a mismatch |
| Pipeline.VerifyAllOkArchitecture | py_server_demo.py:353-372 | every file a completed loop keeps was classified as the requested ABI from the `file` output on its own download path |
| Pipeline.VerifyAllOkDownloads | py_server_demo.py:353-355 | with distinct names, each kept file is what the fetch of that entry's own URL, into its own path, returned |
| Pipeline.VerifyAllErr | py_server_demo.py:342-379 | an aborted loop stopped at the first valid entry whose check failed (download, architecture, or a slot that is a directory), with that entry's failure, after only download and verify steps |
| Pipeline.VerifyAllOkIff | py_server_demo.py:342-396 | the loop completes iff every valid entry downloads, has the requested architecture and has a slot that is not a directory |
| Pipeline.Owner | py_server_demo.py:401-410 | the owner of a slot is the last listed name stored there; there is none iff no listed name is stored there |
| Pipeline.LastEntryOwnsSlot | py_server_demo.py:401-410 | the last valid entry whose name is stored in a slot owns that slot |
| Pipeline.CommitContents | py_server_demo.py:401-410 | after the copy loop, the slot of each valid name holds the download of the slot's owner; the entries of `lib/<abi>` are the unpacked ones plus the owned slots, and every unowned one is unchanged |
| PipelineProperties.RepackageRaised | py_server_demo.py:429-468 | a packaging stage that raises took only build, align or sign steps, never saved the index, and left `lib/<abi>` and the task's status alone; the packaging and the save cannot both have succeeded |
| PipelineProperties.RepackageFinished | py_server_demo.py:429-473 | a packaging stage that finishes built, aligned and signed the APK, saved the index with the new entry, and then set COMPLETE with the output digest, the end stamp and the duration |
| PipelineProperties.RecordFailureOnRunning | py_server_demo.py:495-500 | the exception handler sets FAILED, `reason = str(e)` and the end stamp, and sets a duration exactly when the start stamp is non-zero |
| PipelineProperties.ProcessApkTaskLifecycle | py_server_demo.py:293-500 | a PENDING task ends COMPLETE or FAILED, passing through PROCESSING only; its request fields are untouched; the start and end stamps are set; a failure's reason is the message of the exception that ended the run |
| PipelineProperties.ProcessApkTaskEndsOnce | py_server_demo.py:293-500 | a run's first step sets PROCESSING and its last sets COMPLETE or FAILED; no step in between sets a status, so nothing follows the end |
| PipelineProperties.EndedTrailOnce | py_server_demo.py:293-500 | in the trace of any ended run, the first step is `Started`, the last is `Completed` or `FailedWith`, and no step in between starts or ends the task |
| PipelineProperties.ProcessApkTaskIndexWrite | py_server_demo.py:456-473 | only a completed run saves the index, once and just before COMPLETE, with the new entry added under the original digest; a failed run leaves the stored index unchanged and never saves it |
| PipelineProperties.CompletedRunIsCached | py_server_demo.py:458-468 | after a completed run its entry is the latest cached task for the original digest, with or without its ABI as filter, when it is newer than what was stored |
| PipelineProperties.ProcessApkTaskStopsEarly | py_server_demo.py:321-337 | a failed decode ends the run before anything else; with no non-blank URL the run fails right after the decode and downloads nothing |
| PipelineProperties.ProcessApkTaskFirstFailure | py_server_demo.py:342-379 | when some valid component fails its check (download, architecture, or a name that joins to a directory: `lib/<abi>`, its parent or the root), the task fails with the failure of the first such component as its reason |
| ReplacementProperties.ProcessApkTaskVerifyThenCommit | py_server_demo.py:335-410 | copies happen only when every valid component passed, and then exactly the valid names are copied, in order, after all were verified, with no download after a copy; otherwise `lib/<abi>` is left as unpacked |
| ReplacementProperties.ProcessApkTaskLibContents | py_server_demo.py:401-410 | in a modified `lib/<abi>`, the slot of every valid name is present, and it holds what the URL of the last valid entry stored there returned |
| ReplacementProperties.ProcessApkTaskSucceedsIff | py_server_demo.py:305-473 | a run completes iff the decode succeeds, some URL is non-blank, every valid component passes its check (download, architecture, and a slot that is not a directory), packaging succeeds and the index is saved |
| ReplacementProperties.WrongArchitectureFails | py_server_demo.py:364-372 | a valid component whose file is not classified as the requested ABI fails the task, and nothing is copied |
| Admission.UploadFileMd5 | py_server_demo.py:580-603 | without a digest, or with an empty one, the file's own digest is used; a given digest is accepted iff it is well-formed and its lower-case form equals the file's digest; an accepted key always equals the file's digest |
| Admission.UploadFileMd5IgnoresCase | py_server_demo.py:591-603 | a digest in either letter case gives the same answer, the same key as giving none |
| Admission.Upload | py_server_demo.py:533-614 | an upload is accepted iff the ABI is one of the two names, `so_files` is non-empty and the digest check passes; the task created is PENDING with the file's digest |
| Admission.BlankOnlyUploadFailsLate | py_server_demo.py:544-545 | any non-empty `so_files` whose every URL is blank, with a valid ABI and an accepted digest, is accepted at upload; its task then fails right after the decode with "No valid SO files", having downloaded nothing |
| Admission.ExistPkg | py_server_demo.py:750-831 | a request on a known package is accepted iff the ABI is valid, `so_files` is non-empty, the digest is well-formed, its lower-case form is an index key, and an uploaded APK with that digest exists; the task carries the lower-cased key |
| Admission.CheckMd5 | py_server_demo.py:884-912 | a digest is rejected iff it is malformed; otherwise the answer has the lower-cased key, whether it is indexed, the number of entries and an entry with the greatest timestamp |
| Admission.CheckMd5AgreesWithLatest | py_server_demo.py:892-905 | for a well-formed digest, `/check_md5` names the latest task that the unfiltered cached lookup finds under the lower-cased key |
| Admission.DownloadCached | py_server_demo.py:686-720 | 404 "Cached APK not found" iff no stored task under the digest as given (and ABI) is selected; 404 "Cached APK file not found" iff the latest one's APK is gone; otherwise a stored, selected entry's signed APK, sent as `{pkg_name}_signed.apk` |
| Admission.DownloadCachedAgreesWithCheckMd5 | py_server_demo.py:686-720 | with a lower-case digest and no ABI, it sends the APK of the task `/check_md5` reports as latest, exactly when that file exists |
| Admission.DownloadCachedIsCaseSensitive | py_server_demo.py:686-720 | `/download_cached` looks the digest up as given: when every key is lower case, a digest with an upper-case letter is answered "Cached APK not found" |
| Admission.CheckMd5IgnoresCase | py_server_demo.py:892 | the answer does not depend on the letter case of the digest asked for |

## Left out

- I/O: the HTTP layer, multipart upload, `FileResponse`, status-code mapping
  and logging are not modelled.
- Parsing: `json.loads` of `so_files` and `json.load`/`json.dump` of
  `index.json` are not modelled. The index is taken in parsed form, and
  `so_files` is taken as a list of (name, URL) pairs in key order. The
  rejections "must be a JSON object" and "must be {string: string}" belong to
  that parser.
- Foreign calls: apktool, zipalign, apksigner, `file`, httpx and `hashlib` are
  parameters of the model, not computations in it:
  * each tool is a success/failure oracle;
  * what `file` says about the contents is an opaque string;
  * the digest is an uninterpreted function.
- `file` escapes unusual characters when it prints a file name. The model
  prints the name as it is. This matters only for names with control or
  non-printable characters.
- Time: clock readings are natural numbers, not floats. The readings of one
  run (start, index timestamp, end) are given as inputs.
- Concurrency: the global `tasks` dictionary, background scheduling and the
  unsynchronised load/modify/save of `index.json` across tasks are not
  modelled.
- Save failures: a failing `save_index` is modelled as leaving the stored index
  unchanged. Truncating the file half-way is not modelled.
- Index list elements are assumed to be entry records. A non-record element
  would crash the `.get` calls in the source.
- Filesystem scan: the `/exist_pkg` search of the uploads directory is an input
  (`original`, the file found or none). So is the copy of the found APK.
- Path formatting: `signed_apk_download_path` and `smb_path` are
  configuration-driven string formatting. The working-directory name is
  modelled, because it feeds the architecture check.
- Work directory creation: `work_path.mkdir` (py_server_demo.py:313-314) is
  not modelled, so the model goes on to the decode in the cases where it raises:
  * a package name holding NUL (ValueError);
  * a `{pkg_name}_{file_md5}` segment longer than 255 bytes, that is, a package
    name over 222 bytes (ENAMETOOLONG);
  * a package name holding `/`, when the directories it names do not exist.

  A package name starting with `/` is modelled: it replaces `workdir/temp`.
  `pathlib` also rewrites `//` and `/./` inside the name, and three or more
  leading separators, while the modelled work path keeps them. Only path text
  changes: the text in `IsDirectory` reasons and the path `file` prints. No
  ABI word contains `/` or `.`, so the `file` verdict stays the same.
- Paths longer than PATH_MAX (4096 bytes) are not modelled.
- Subdirectories of the decoded `lib/<abi>` are not modelled: it is a map from
  file names to contents.
- The `IsDirectory` reason is written with the path in single quotes. Python's
  `repr` escaping of quotes and control characters in that path is not
  modelled.
- Other endpoints: `/index` totals, `/task_status` and `/download` are
  read-only lookups without logic of their own.
- Digests: `so_md5_before`/`so_md5_after` are kept as maps rather than their
  JSON text.
- Text.Lower: lower-cases ASCII letters only, where Python lower-cases all of
  Unicode. This is exact for the MD5 check, whose accepted characters are
  ASCII. It is also exact for the classifier, because no non-ASCII character
  lower-cases into the letters of "aarch64", "arm64" or "arm".
- Pipeline.VerifyAllOkDownloads: requires distinct component names, because
  the source receives them as the keys of a dictionary.
- ReplacementProperties.ProcessApkTaskLibContents: requires distinct component
  names, for the same reason.
- PipelineProperties.ProcessApkTaskLifecycle: requires a PENDING task with only
  its request fields set. The server only ever hands `process_apk_task` a task
  it has just created that way.
- PipelineProperties.ProcessApkTaskIndexWrite: requires a freshly created task,
  for the same reason.
- PipelineProperties.CompletedRunIsCached: requires a freshly created task, for
  the same reason.

## Findings

| source | as written | input that shows it | evidently intended | confidence | as-written member | corrected member |
|---|---|---|---|---|---|---|
| py_server_demo.py:159-171 | `file` runs without `-b`, and its whole output is searched, so the download path is searched too; that path holds the package name and the component name | an ARMv7 library submitted under `libarm64.so` (path `workdir/temp/com.example.game_d41d8cd98f00b204e9800998ecf8427e/downloaded_libarm64.so`) passes as arm64-v8a, though its contents say ARM | classify only what `file` says about the contents (`file -b`) | medium, not executed | Architecture.DetectSoArchitecture, exhibited by Architecture.PathSwaysDetection and Pipeline.Arm64NamePasses | Architecture.DetectByContent, with Architecture.DetectByContentIff and Architecture.NeutralPathAgrees |

=== FILE: admission.dfy ===
/** The checks the endpoints make before a task exists: the architecture
    name, a non-empty `so_files` object, the MD5 key format and, for
    `/exist_pkg`, the key being in the index. Also the read-only
    `/check_md5` answer. Each rejection is the `detail` text of the 400 or
    404 answer. */
module Admission {
  import opened Wrappers
  import opened Text
  import opened Md5Key
  import opened Architecture
  import opened Entries
  import opened ProcessingIndex
  import opened Tasks
  import opened Pipeline
  import opened PipelineProperties

  const ArchRejected := "so_architecture must be 'arm64-v8a' or 'armeabi-v7a'"
  const SoFilesEmpty := "so_files cannot be empty"
  const Md5Rejected := "Invalid MD5 format. Must be 32 hexadecimal characters."

  function Md5Mismatch(provided: string, calculated: string): string
  {
    "MD5 mismatch. Provided: " + provided + ", Calculated: " + calculated
  }

  function Md5NotIndexed(key: string): string
  {
    "MD5 " + key + " not found in index. Use /upload endpoint for new APKs."
  }

  function OriginalMissing(key: string): string
  {
    "Original APK file not found for MD5 " + key + ". Please re-upload using /upload endpoint."
  }

  /** The `file_md5` of an upload: the digest of the stored file, or the
      client's digest (checked and lower-cased) when one is given. An empty
      form value counts as not given (`if md5:`). */
  function UploadFileMd5(provided: Option<string>, calculated: string): (r: Result<string, string>)
    ensures provided.None? || provided.value == "" ==> r == Ok(calculated)
    ensures provided.Some? && provided.value != "" ==>
      (r.Ok? <==> IsMd5(provided.value) && Lower(provided.value) == calculated)
    ensures provided.Some? && provided.value != "" && !IsMd5(provided.value) ==> r == Err(Md5Rejected)
    ensures r.Ok? ==> r.value == calculated
  {
    match provided
    case None => Ok(calculated)
    case Some(p) =>
      if p == "" then Ok(calculated)
      else match NormalizeMd5(p)
        case None => Err(Md5Rejected)
        case Some(key) =>
          if calculated != key then Err(Md5Mismatch(key, calculated)) else Ok(key)
  }

  /** Giving the digest in either case, or not at all, yields the same key
      when the upload is accepted. */
  lemma UploadFileMd5IgnoresCase(p: string, q: string, calculated: string)
    requires p != "" && q != "" && Lower(p) == Lower(q)
    ensures UploadFileMd5(Some(p), calculated) == UploadFileMd5(Some(q), calculated)
    ensures UploadFileMd5(Some(p), calculated).Ok? ==>
      UploadFileMd5(Some(p), calculated) == UploadFileMd5(None, calculated)
  {
    NormalizeIgnoresCase(p, q);
  }

  /** `/upload`: validate, then create the PENDING task that is handed to
      `process_apk_task` with the same `so_files`. */
  function Upload(taskId: string, filename: string, pkgName: string, archName: string,
                  soFiles: SoFiles, md5: Option<string>, calculated: string): (r: Result<TaskInfo, string>)
    ensures ParseArch(archName).None? ==> r == Err(ArchRejected)
    ensures ParseArch(archName).Some? && |soFiles| == 0 ==> r == Err(SoFilesEmpty)
    ensures r.Ok? <==> ParseArch(archName).Some? && |soFiles| > 0 && UploadFileMd5(md5, calculated).Ok?
    ensures r.Ok? ==>
      && r.value.status == Pending && Consistent(r.value)
      && r.value.taskId == taskId && r.value.filename == filename && r.value.pkgName == pkgName
      && r.value.fileMd5Before == calculated
      && ArchName(r.value.soArchitecture) == archName
  {
    match ParseArch(archName)
    case None => Err(ArchRejected)
    case Some(arch) =>
      if |soFiles| == 0 then Err(SoFilesEmpty)
      else match UploadFileMd5(md5, calculated)
        case Err(e) => Err(e)
        case Ok(fileMd5) => Ok(NewTask(taskId, filename, pkgName, fileMd5, arch))
  }

  /** The upload check only asks for a non-empty object: an object whose
      every URL is blank is accepted, and its task fails in the pipeline
      after the decode, with "No valid SO files" as its reason. */
  lemma BlankOnlyUploadFailsLate(taskId: string, filename: string, pkgName: string, archName: string,
                                  soFiles: SoFiles, md5: Option<string>, calculated: string, tools: Tools)
    requires ParseArch(archName).Some? && UploadFileMd5(md5, calculated).Ok?
    requires |soFiles| > 0 && forall i :: 0 <= i < |soFiles| ==> IsBlank(soFiles[i].1)
    requires tools.decodeOk
    ensures var r := Upload(taskId, filename, pkgName, archName, soFiles, md5, calculated);
      && r.Ok?
      && var run := ProcessApkTask(r.value, soFiles, tools);
      && run.task.status == Failed
      && run.task.reason == Some("No valid SO files to process. All URLs are empty.")
      && run.trace == [Started, Decoded, FailedWith(NoValidSoFiles)]
  {
    AllBlankNoValidNames(soFiles);
    var r := Upload(taskId, filename, pkgName, archName, soFiles, md5, calculated);
    ProcessApkTaskStopsEarly(r.value, soFiles, tools);
  }

  /** `/exist_pkg`: validate, require the lower-cased key in the index and
      an uploaded APK with that digest (`original`, the file name the
      directory scan found), then create the PENDING task. */
  function ExistPkg(taskId: string, pkgName: string, archName: string, soFiles: SoFiles,
                    md5: string, idx: Index, original: Option<string>): (r: Result<TaskInfo, string>)
    ensures r.Ok? <==>
      && ParseArch(archName).Some? && |soFiles| > 0 && IsMd5(md5)
      && Lower(md5) in idx && original.Some?
    ensures ParseArch(archName).Some? && |soFiles| > 0 && IsMd5(md5) && Lower(md5) !in idx ==>
      r == Err(Md5NotIndexed(Lower(md5)))
    ensures r.Ok? ==>
      && r.value.status == Pending && Consistent(r.value)
      && IsCanonicalMd5(r.value.fileMd5Before) && r.value.fileMd5Before in idx
      && r.value.fileMd5Before == Lower(md5)
      && r.value.filename == original.value && r.value.taskId == taskId && r.value.pkgName == pkgName
      && ArchName(r.value.soArchitecture) == archName
  {
    match ParseArch(archName)
    case None => Err(ArchRejected)
    case Some(arch) =>
      if |soFiles| == 0 then Err(SoFilesEmpty)
      else match NormalizeMd5(md5)
        case None => Err(Md5Rejected)
        case Some(key) =>
          if key !in idx then Err(Md5NotIndexed(key))
          else match original
            case None => Err(OriginalMissing(key))
            case Some(name) => Ok(NewTask(taskId, name, pkgName, key, arch))
  }

  /** The `/check_md5` answer: whether the key is indexed, the key, how many
      tasks it has and the latest of them. */
  datatype Md5Report = Md5Report(indexed: bool, md5: string, count: nat, latest: Option<Entry>)

  function CheckMd5(md5: string, idx: Index): (r: Result<Md5Report, string>)
    ensures r.Err? <==> !IsMd5(md5)
    ensures r.Err? ==> r.error == Md5Rejected
    ensures r.Ok? ==>
      && r.value.md5 == Lower(md5) && IsCanonicalMd5(r.value.md5)
      && (r.value.indexed <==> r.value.md5 in idx)
      && r.value.count == |EntriesFor(idx, r.value.md5)|
      && (r.value.latest.None? <==> r.value.count == 0)
      && (r.value.latest.Some? ==>
            && r.value.latest.value in idx[r.value.md5]
            && forall x :: x in idx[r.value.md5] ==> TimeKey(x) <= TimeKey(r.value.latest.value))
  {
    match NormalizeMd5(md5)
    case None => Err(Md5Rejected)
    case Some(key) =>
      if key !in idx then Ok(Md5Report(false, key, 0, None))
      else
        var ts := idx[key];
        Ok(Md5Report(true, key, |ts|, if |ts| == 0 then None else Some(ts[LatestPosition(ts)])))
  }

  /** For a well-formed digest, `/check_md5` reports the latest task that
      `get_latest_cached_task` finds, with no filter, under the lower-cased
      key. `/download_cached` passes its digest on as given, so it agrees
      only when asked with that lower-cased key. */
  lemma CheckMd5AgreesWithLatest(md5: string, idx: Index)
    requires IsMd5(md5)
    ensures CheckMd5(md5, idx).Ok?
    ensures CheckMd5(md5, idx).value.latest == GetLatestCachedTask(idx, Lower(md5), None)
  {
  }

  const CachedNotFound := "Cached APK not found"
  const CachedFileMissing := "Cached APK file not found"

  /** The file a download answer sends, and the name it is sent under. */
  datatype Sent = Sent(path: string, filename: string)

  /** `/download_cached/{file_md5}`: the latest cached task under the digest
      exactly as given (optionally of one ABI), and the signed APK it names
      when that file is still on disk (`apkExists`). */
  function DownloadCached(md5: string, arch: Option<string>, idx: Index, apkExists: string -> bool): (r: Result<Sent, string>)
    ensures r == Err(CachedNotFound) <==> GetLatestCachedTask(idx, md5, arch).None?
    ensures r == Err(CachedFileMissing) <==>
      && GetLatestCachedTask(idx, md5, arch).Some?
      && !apkExists(GetLatestCachedTask(idx, md5, arch).value.signedApkPath)
    ensures r.Ok? ==>
      && md5 in idx
      && apkExists(r.value.path)
      && exists e :: e in idx[md5] && Selected(e, arch)
                     && e.signedApkPath == r.value.path && r.value.filename == e.pkgName + "_signed.apk"
  {
    match GetLatestCachedTask(idx, md5, arch)
    case None => Err(CachedNotFound)
    case Some(e) =>
      if !apkExists(e.signedApkPath) then Err(CachedFileMissing)
      else Ok(Sent(e.signedApkPath, e.pkgName + "_signed.apk"))
  }

  /** Asked with a lower-case digest and no ABI, `/download_cached` sends
      the APK of exactly the task `/check_md5` reports as latest, when that
      file is on disk. */
  lemma DownloadCachedAgreesWithCheckMd5(md5: string, idx: Index, apkExists: string -> bool)
    requires IsMd5(md5) && Lower(md5) == md5
    ensures CheckMd5(md5, idx).Ok?
    ensures var latest := CheckMd5(md5, idx).value.latest;
      DownloadCached(md5, None, idx, apkExists).Ok? <==> latest.Some? && apkExists(latest.value.signedApkPath)
    ensures DownloadCached(md5, None, idx, apkExists).Ok? ==>
      DownloadCached(md5, None, idx, apkExists).value.path == CheckMd5(md5, idx).value.latest.value.signedApkPath
  {
    CheckMd5AgreesWithLatest(md5, idx);
  }

  /** `/download_cached` matches the digest case-sensitively: in an index
      whose keys are all lower case, as the server stores them, a digest
      with an upper-case letter finds nothing, even when `/check_md5`
      reports a task for it. */
  lemma DownloadCachedIsCaseSensitive(md5: string, idx: Index, arch: Option<string>, apkExists: string -> bool)
    requires Lower(md5) != md5
    requires forall k :: k in idx ==> Lower(k) == k
    ensures GetLatestCachedTask(idx, md5, arch) == None
    ensures DownloadCached(md5, arch, idx, apkExists) == Err(CachedNotFound)
  {
  }

  /** The answer does not depend on the letter case of the digest asked for. */
  lemma CheckMd5IgnoresCase(a: string, b: string, idx: Index)
    requires Lower(a) == Lower(b)
    ensures CheckMd5(a, idx) == CheckMd5(b, idx)
  {
    NormalizeIgnoresCase(a, b);
  }
}

=== FILE: architecture.dfy ===
/** The two Android ABIs the server handles and the classification of the
    `file` command's output into one of them. */
module Architecture {
  import opened Wrappers
  import opened Text

  datatype Arch = Arm64V8a | ArmeabiV7a

  /** The ABI directory name under `lib/`, also the form-field value. */
  function ArchName(a: Arch): string
  {
    match a
    case Arm64V8a => "arm64-v8a"
    case ArmeabiV7a => "armeabi-v7a"
  }

  /** The endpoints' `so_architecture not in [...]` check. */
  function ParseArch(s: string): (r: Option<Arch>)
    ensures r.Some? <==> (s == "arm64-v8a" || s == "armeabi-v7a")
    ensures r.Some? ==> ArchName(r.value) == s
  {
    if s == "arm64-v8a" then Some(Arm64V8a)
    else if s == "armeabi-v7a" then Some(ArmeabiV7a)
    else None
  }

  lemma ParseArchName(a: Arch)
    ensures ParseArch(ArchName(a)) == Some(a)
  {
  }

  /** The `ARCH_MAPPING` table: the `file` output words naming each ABI.
      The server never reads this table; the classifier below spells the
      same words out inline, and `ClassifyAgreesWithAliases` states that the
      two stay in step. */
  function Aliases(a: Arch): seq<string>
  {
    match a
    case Arm64V8a => ["aarch64", "arm64"]
    case ArmeabiV7a => ["armv7", "arm"]
  }

  /** Some alias of `a` occurs in the (already lower-cased) output `o`. */
  ghost predicate MentionsAlias(o: string, a: Arch)
  {
    exists j :: 0 <= j < |Aliases(a)| && Contains(o, Aliases(a)[j])
  }

  /** The string test inside `detect_so_architecture`: 64-bit words first,
      then any `arm`. */
  function ClassifyFileOutput(output: string): Option<Arch>
  {
    var o := Lower(output);
    if Contains(o, "aarch64") || Contains(o, "arm64") then Some(Arm64V8a)
    else if Contains(o, "arm") then Some(ArmeabiV7a)
    else None
  }

  /** What `file <path>` prints: the path it was given, a colon, and the
      description of the contents. */
  function FileStdout(path: string, description: string): string
  {
    path + ": " + description + "\n"
  }

  /** `detect_so_architecture` as written: `None` when the `file` command
      itself failed (the exception is caught), otherwise the classification
      of its whole output, which begins with the path of the file. */
  function DetectSoArchitecture(path: string, description: Option<string>): Option<Arch>
  {
    match description
    case None => None
    case Some(d) => ClassifyFileOutput(FileStdout(path, d))
  }

  /** The evidently intended detection: classify what `file -b` prints, the
      description of the contents alone. */
  function DetectByContent(description: Option<string>): Option<Arch>
  {
    match description
    case None => None
    case Some(d) => ClassifyFileOutput(d)
  }

  /** `s` names a 64-bit ARM ABI, ignoring case. */
  predicate Names64(s: string)
  {
    Contains(Lower(s), "aarch64") || Contains(Lower(s), "arm64")
  }

  /** `s` contains `arm`, ignoring case. */
  predicate NamesArm(s: string)
  {
    Contains(Lower(s), "arm")
  }

  /** A search word of the classifier occurs in the output exactly when it
      occurs in the path or in the description: none of its letters can
      match across the `": "` or the final newline. */
  lemma StdoutContains(path: string, d: string, pat: string)
    requires |pat| > 0
    requires forall k :: 0 <= k < |pat| ==> pat[k] != ':' && pat[k] != ' ' && pat[k] != '\n'
    ensures Contains(Lower(FileStdout(path, d)), pat) <==> Contains(Lower(path), pat) || Contains(Lower(d), pat)
  {
    LowerAppend(path + ": " + d, "\n");
    LowerAppend(path + ": ", d);
    LowerAppend(path, ": ");
    assert Lower(FileStdout(path, d)) == Lower(path) + ": " + (Lower(d) + "\n");
    ContainsAcross(Lower(path), ": ", Lower(d) + "\n", pat);
    ContainsAcross(Lower(d), "\n", "", pat);
    assert Lower(d) + "\n" + "" == Lower(d) + "\n";
  }

  /** The detection as written, in both directions: `arm64-v8a` when the
      path or the description names a 64-bit ABI, otherwise `armeabi-v7a`
      when either contains `arm`. */
  lemma DetectReadsPath(path: string, d: string)
    ensures DetectSoArchitecture(path, Some(d)) == Some(Arm64V8a) <==> Names64(path) || Names64(d)
    ensures DetectSoArchitecture(path, Some(d)) == Some(ArmeabiV7a) <==>
      !Names64(path) && !Names64(d) && (NamesArm(path) || NamesArm(d))
    ensures DetectSoArchitecture(path, Some(d)) == None <==>
      !Names64(path) && !Names64(d) && !NamesArm(path) && !NamesArm(d)
  {
    StdoutContains(path, d, "aarch64");
    StdoutContains(path, d, "arm64");
    StdoutContains(path, d, "arm");
  }

  /** The intended detection, in both directions. */
  lemma DetectByContentIff(d: string)
    ensures DetectByContent(Some(d)) == Some(Arm64V8a) <==> Names64(d)
    ensures DetectByContent(Some(d)) == Some(ArmeabiV7a) <==> !Names64(d) && NamesArm(d)
    ensures DetectByContent(Some(d)) == None <==> !Names64(d) && !NamesArm(d)
  {
  }

  /** The two detections agree whenever the path names no ARM ABI. */
  lemma NeutralPathAgrees(path: string, description: Option<string>)
    requires !Names64(path) && !NamesArm(path)
    ensures DetectSoArchitecture(path, description) == DetectByContent(description)
  {
    if description.Some? {
      DetectReadsPath(path, description.value);
    }
  }

  /** A string that names a 64-bit ABI still does inside a longer one. */
  lemma Names64Within(a: string, m: string, b: string)
    requires Names64(m)
    ensures Names64(a + m + b)
  {
    LowerAppend(a + m, b);
    LowerAppend(a, m);
    var pat := if Contains(Lower(m), "aarch64") then "aarch64" else "arm64";
    ContainsInRight(Lower(a), Lower(m), pat);
    ContainsInLeft(Lower(a) + Lower(m), Lower(b), pat);
  }

  /** The path of a downloaded ARMv7 library stored under the name
      `libarm64.so`, and what `file` says of its contents. */
  const SwayingPath: string :=
    "workdir/temp/com.example.game_" + "d41d8cd98f00b204e9800998ecf8427e" + "/downloaded_libarm64.so"
  const Armv7Description: string :=
    "ELF 32-bit LSB shared object, " + "ARM, EABI5 version 1 (SYSV), " + "dynamically linked, stripped"

  /** The contents are ARMv7, but the path decides: the library is accepted
      as `arm64-v8a`. */
  lemma PathSwaysDetection()
    ensures DetectByContent(Some(Armv7Description)) == Some(ArmeabiV7a)
    ensures DetectSoArchitecture(SwayingPath, Some(Armv7Description)) == Some(Arm64V8a)
  {
    Armv7DescriptionIsArm();
    SwayingPathNames64();
    DetectReadsPath(SwayingPath, Armv7Description);
  }

  lemma Armv7DescriptionIsArm()
    ensures !Names64(Armv7Description) && NamesArm(Armv7Description)
  {
    var l := Lower(Armv7Description);
    Armv7DescriptionHasNoSix();
    LowerAvoids(Armv7Description, '6');
    AbsentCharRulesOut(l, "aarch64", '6');
    AbsentCharRulesOut(l, "arm64", '6');
    Armv7DescriptionSaysArm();
  }

  lemma Armv7DescriptionHasNoSix()
    ensures '6' !in Armv7Description
  {
    var a, b, c := "ELF 32-bit LSB shared object, ", "ARM, EABI5 version 1 (SYSV), ", "dynamically linked, stripped";
    assert '6' !in a;
    assert '6' !in b;
    assert '6' !in c;
    assert Armv7Description == a + b + c;
  }

  lemma Armv7DescriptionSaysArm()
    ensures NamesArm(Armv7Description)
  {
    var a, b, c := "ELF 32-bit LSB shared object, ", "ARM, EABI5 version 1 (SYSV), ", "dynamically linked, stripped";
    LowerAppend(a + b, c);
    LowerAppend(a, b);
    assert Lower(b)[0..3] == "arm";
    assert OccursAt(Lower(b), "arm", 0);
    ContainsIff(Lower(b), "arm");
    ContainsInRight(Lower(a), Lower(b), "arm");
    ContainsInLeft(Lower(a) + Lower(b), Lower(c), "arm");
  }

  lemma SwayingPathNames64()
    ensures Names64(SwayingPath)
  {
    var a, b := "workdir/temp/com.example.game_" + "d41d8cd98f00b204e9800998ecf8427e", "/downloaded_libarm64.so";
    assert Lower(b)[15..20] == "arm64";
    assert OccursAt(Lower(b), "arm64", 15);
    ContainsIff(Lower(b), "arm64");
    ContainsInRight(Lower(a), Lower(b), "arm64");
    LowerAppend(a, b);
  }

  /** The three outcomes of the classifier in terms of where the words occur
      in the lower-cased output, so outputs that differ only in letter case
      are classified alike. No `arm64` test is needed for `None`: every
      `arm64` is also an `arm`. */
  lemma ClassifyIff(output: string)
    ensures ClassifyFileOutput(output) == Some(Arm64V8a) <==>
      (exists i :: OccursAt(Lower(output), "aarch64", i)) || (exists i :: OccursAt(Lower(output), "arm64", i))
    ensures ClassifyFileOutput(output) == Some(ArmeabiV7a) <==>
      && !(exists i :: OccursAt(Lower(output), "aarch64", i))
      && !(exists i :: OccursAt(Lower(output), "arm64", i))
      && (exists i :: OccursAt(Lower(output), "arm", i))
    ensures ClassifyFileOutput(output) == None <==>
      && !(exists i :: OccursAt(Lower(output), "aarch64", i))
      && !(exists i :: OccursAt(Lower(output), "arm", i))
  {
    var o := Lower(output);
    ContainsIff(o, "aarch64");
    ContainsIff(o, "arm64");
    ContainsIff(o, "arm");
    if Contains(o, "arm64") {
      ContainsPrefixOf(o, "arm64", "arm");
    }
  }

  /** The classifier agrees with `ARCH_MAPPING`: a 64-bit alias always gives
      `arm64-v8a`, and a 32-bit alias without a 64-bit one gives
      `armeabi-v7a`. */
  lemma ClassifyAgreesWithAliases(output: string)
    ensures MentionsAlias(Lower(output), Arm64V8a) ==> ClassifyFileOutput(output) == Some(Arm64V8a)
    ensures MentionsAlias(Lower(output), ArmeabiV7a) && !MentionsAlias(Lower(output), Arm64V8a) ==>
      ClassifyFileOutput(output) == Some(ArmeabiV7a)
  {
    var o := Lower(output);
    if MentionsAlias(o, ArmeabiV7a) && !MentionsAlias(o, Arm64V8a) {
      var j :| 0 <= j < 2 && Contains(o, Aliases(ArmeabiV7a)[j]);
      if j == 0 {
        ContainsPrefixOf(o, "armv7", "arm");
      }
      assert !Contains(o, Aliases(Arm64V8a)[0]);
      assert !Contains(o, Aliases(Arm64V8a)[1]);
    }
    if MentionsAlias(o, Arm64V8a) {
      var j :| 0 <= j < 2 && Contains(o, Aliases(Arm64V8a)[j]);
    }
  }
}

=== FILE: entries.dfy ===
/** One task entry of the processing index and the two orderings the server
    applies to a list of them: the retention sort (newest first, stable) and
    the "most recent" pick of Python's `max`. */
module Entries {
  import opened Wrappers

  /** A task entry as written by a successful run. `so_architecture` and
      `timestamp` are read with `.get`, so they may be missing in entries
      written by older versions. */
  datatype Entry = Entry(
    taskId: string,
    pkgName: string,
    soArchitecture: Option<string>,
    signedApkPath: string,
    fileMd5After: string,
    timestamp: Option<nat>)

  /** `x.get("timestamp", 0)`. */
  function TimeKey(e: Entry): nat
  {
    match e.timestamp
    case Some(t) => t
    case None => 0
  }

  /** Newest first. */
  ghost predicate SortedDesc(s: seq<Entry>)
  {
    forall i, j :: 0 <= i < j < |s| ==> TimeKey(s[i]) >= TimeKey(s[j])
  }

  /** The entries of `s` whose timestamp is `k`, in their order in `s`. A sort
      is stable exactly when it keeps every such group as it was. */
  function KeyFilter(s: seq<Entry>, k: nat): (r: seq<Entry>)
    ensures |r| <= |s|
    ensures forall i :: 0 <= i < |r| ==> TimeKey(r[i]) == k
  {
    if |s| == 0 then []
    else (if TimeKey(s[0]) == k then [s[0]] else []) + KeyFilter(s[1..], k)
  }

  lemma {:induction false} KeyFilterAppend(a: seq<Entry>, b: seq<Entry>, k: nat)
    ensures KeyFilter(a + b, k) == KeyFilter(a, k) + KeyFilter(b, k)
    decreases |a|
  {
    if |a| == 0 {
      assert a + b == b;
    } else {
      assert (a + b)[1..] == a[1..] + b;
      KeyFilterAppend(a[1..], b, k);
    }
  }

  /** A non-empty group means an entry of `s` has that timestamp. */
  lemma {:induction false} KeyFilterWitness(s: seq<Entry>, k: nat)
    requires |KeyFilter(s, k)| > 0
    ensures exists j :: 0 <= j < |s| && TimeKey(s[j]) == k
    decreases |s|
  {
    if TimeKey(s[0]) != k {
      KeyFilterWitness(s[1..], k);
      var j :| 0 <= j < |s[1..]| && TimeKey(s[1..][j]) == k;
      assert TimeKey(s[j + 1]) == k;
    }
  }

  /** Insert `e` into a newest-first list, ahead of every entry with the same
      timestamp. */
  function InsertDesc(e: Entry, s: seq<Entry>): (r: seq<Entry>)
    ensures multiset(r) == multiset(s) + multiset{e}
    decreases |s|
  {
    if |s| == 0 || TimeKey(e) >= TimeKey(s[0]) then
      [e] + s
    else
      assert s == [s[0]] + s[1..];
      [s[0]] + InsertDesc(e, s[1..])
  }

  lemma {:induction false} InsertDescSorted(e: Entry, s: seq<Entry>)
    requires SortedDesc(s)
    ensures SortedDesc(InsertDesc(e, s))
    decreases |s|
  {
    if |s| == 0 || TimeKey(e) >= TimeKey(s[0]) {
    } else {
      var rest := InsertDesc(e, s[1..]);
      InsertDescSorted(e, s[1..]);
      assert s == [s[0]] + s[1..];
      forall j | 0 <= j < |rest|
        ensures TimeKey(s[0]) >= TimeKey(rest[j])
      {
        assert rest[j] in multiset(rest);
        assert rest[j] == e || rest[j] in multiset(s[1..]);
      }
    }
  }

  /** Inserting `e` adds it at the front of its timestamp group. */
  lemma {:induction false} InsertDescKeyFilter(e: Entry, s: seq<Entry>, k: nat)
    requires SortedDesc(s)
    ensures KeyFilter(InsertDesc(e, s), k) == (if TimeKey(e) == k then [e] else []) + KeyFilter(s, k)
    decreases |s|
  {
    if |s| == 0 || TimeKey(e) >= TimeKey(s[0]) {
      assert ([e] + s)[1..] == s;
    } else {
      var rest := InsertDesc(e, s[1..]);
      InsertDescKeyFilter(e, s[1..], k);
      assert ([s[0]] + rest)[1..] == rest;
    }
  }

  /** `sort(key=timestamp, reverse=True)`: Python's sort is stable also when
      reversed, so entries with equal timestamps keep their order. */
  function SortByTimeDesc(s: seq<Entry>): (r: seq<Entry>)
    ensures SortedDesc(r)
    ensures multiset(r) == multiset(s)
    ensures |r| == |s|
    ensures forall k :: KeyFilter(r, k) == KeyFilter(s, k)
    decreases |s|
  {
    if |s| == 0 then []
    else
      var rest := SortByTimeDesc(s[1..]);
      var r := InsertDesc(s[0], rest);
      InsertDescSorted(s[0], rest);
      forall k ensures KeyFilter(r, k) == KeyFilter(s, k) {
        InsertDescKeyFilter(s[0], rest, k);
      }
      assert s == [s[0]] + s[1..];
      assert |r| == |multiset(r)| == |s|;
      r
  }

  /** Position of `max(s, key=timestamp)`: Python's `max` scans left to right
      and replaces its candidate only on a strictly larger key, so it is the
      first entry with the largest timestamp. */
  function LatestPosition(s: seq<Entry>): (p: nat)
    requires |s| > 0
    ensures p < |s|
    ensures forall j :: 0 <= j < |s| ==> TimeKey(s[j]) <= TimeKey(s[p])
    ensures forall j :: 0 <= j < p ==> TimeKey(s[j]) < TimeKey(s[p])
    decreases |s|
  {
    if |s| == 1 then 0
    else
      var p := LatestPosition(s[..|s| - 1]);
      if TimeKey(s[|s| - 1]) > TimeKey(s[p]) then |s| - 1 else p
  }
}

=== FILE: md5_key.dfy ===
/** The MD5 key format the endpoints accept: 32 hexadecimal characters in
    either case, stored and looked up in lower case. */
module Md5Key {
  import opened Wrappers
  import opened Text

  /** Length of an MD5 hex digest. */
  const Md5Length: nat := 32

  predicate IsHexDigit(c: char)
  {
    '0' <= c <= '9' || 'a' <= c <= 'f' || 'A' <= c <= 'F'
  }

  /** The check `len(md5) == 32 and all(c in '0123456789abcdefABCDEF' ...)`. */
  predicate IsMd5(s: string)
  {
    |s| == Md5Length && forall i :: 0 <= i < |s| ==> IsHexDigit(s[i])
  }

  predicate IsLowerHexDigit(c: char)
  {
    '0' <= c <= '9' || 'a' <= c <= 'f'
  }

  /** The form a key has in the index: what `hexdigest()` produces. */
  predicate IsCanonicalMd5(s: string)
  {
    |s| == Md5Length && forall i :: 0 <= i < |s| ==> IsLowerHexDigit(s[i])
  }

  /** The value of one hexadecimal digit, case-insensitively. */
  function HexValue(c: char): (v: nat)
    requires IsHexDigit(c)
    ensures v < 16
  {
    if '0' <= c <= '9' then c as int - '0' as int
    else if 'a' <= c <= 'f' then c as int - 'a' as int + 10
    else c as int - 'A' as int + 10
  }

  /** Validate an MD5 given by a client and lower-case it; `None` is the
      400 "Invalid MD5 format" answer. */
  function NormalizeMd5(s: string): (r: Option<string>)
    ensures r.Some? <==> IsMd5(s)
    ensures r.Some? ==> IsCanonicalMd5(r.value)
    ensures r.Some? ==> forall i :: 0 <= i < |s| ==> IsHexDigit(s[i]) && IsHexDigit(r.value[i]) && HexValue(r.value[i]) == HexValue(s[i])
  {
    if IsMd5(s) then Some(Lower(s)) else None
  }

  /** A key already in index form is accepted and left as it is. */
  lemma CanonicalIsFixedPoint(k: string)
    requires IsCanonicalMd5(k)
    ensures NormalizeMd5(k) == Some(k)
  {
    assert Lower(k) == k;
  }

  /** Normalising twice is normalising once. */
  lemma NormalizeIdempotent(s: string)
    requires NormalizeMd5(s).Some?
    ensures NormalizeMd5(NormalizeMd5(s).value) == NormalizeMd5(s)
  {
    CanonicalIsFixedPoint(NormalizeMd5(s).value);
  }

  /** Two spellings that differ only in letter case name the same key. */
  lemma NormalizeIgnoresCase(s: string, t: string)
    requires Lower(s) == Lower(t)
    ensures NormalizeMd5(s) == NormalizeMd5(t)
  {
    assert forall i :: 0 <= i < |s| ==> (IsHexDigit(s[i]) <==> IsHexDigit(LowerChar(s[i])));
    assert forall i :: 0 <= i < |t| ==> (IsHexDigit(t[i]) <==> IsHexDigit(LowerChar(t[i])));
    assert IsMd5(s) <==> IsMd5(t) by {
      if IsMd5(s) {
        assert forall i :: 0 <= i < |t| ==> LowerChar(t[i]) == Lower(s)[i];
      }
      if IsMd5(t) {
        assert forall i :: 0 <= i < |s| ==> LowerChar(s[i]) == Lower(t)[i];
      }
    }
  }
}

=== FILE: paths.dfy ===
/** How `pathlib` joins a component name under a directory, and the file
    system's limit on the length of one path segment. `/` splits a name
    into segments; empty and `.` segments are dropped, `..` is kept. */
module Paths {

  /** The part of a name before its first `/`: the segment a join puts
      directly under the directory. */
  function Slot(name: string): (r: string)
    ensures '/' !in r && r <= name
    ensures |r| < |name| ==> name[|r|] == '/'
    decreases |name|
  {
    if |name| == 0 || name[0] == '/' then "" else [name[0]] + Slot(name[1..])
  }

  /** The rest of the name, from its first `/` on (empty without one). */
  function Trailer(name: string): string
  {
    name[|Slot(name)|..]
  }

  /** Every segment of `s` is empty or `.`, so joining it adds no level. */
  predicate Dropped(s: string)
  {
    forall i :: 0 <= i < |s| ==>
      && (s[i] == '/' || s[i] == '.')
      && (s[i] == '.' && i + 1 < |s| ==> s[i + 1] == '/')
  }

  /** A name without `/` is its own slot, with nothing after it. */
  lemma PlainName(name: string)
    requires '/' !in name
    ensures Slot(name) == name && Trailer(name) == ""
  {
  }

  /** A name is its slot followed by its trailer. */
  lemma SlotThenTrailer(name: string)
    ensures name == Slot(name) + Trailer(name)
    ensures Trailer(name) == "" || Trailer(name)[0] == '/'
  {
  }

  /** A name with a dropped trailer is its slot, or its slot and a `/`
      followed only by `/` and `.`. */
  lemma SlotSplit(name: string)
    requires Dropped(Trailer(name))
    ensures Trailer(name) == "" ==> name == Slot(name)
    ensures Trailer(name) != "" ==>
      && name == Slot(name) + "/" + Trailer(name)[1..]
      && forall i :: 0 <= i < |Trailer(name)[1..]| ==> Trailer(name)[1..][i] == '/' || Trailer(name)[1..][i] == '.'
  {
    SlotThenTrailer(name);
    var t := Trailer(name);
    if t != "" {
      var rest := t[1..];
      assert t == "/" + rest;
      assert forall i :: 0 <= i < |rest| ==> rest[i] == t[i + 1];
    }
  }

  /** Separators and `.` segments after a plain name change neither its
      slot nor whether anything follows the slot. */
  lemma {:induction false} TrailingDropped(name: string, tail: string)
    requires '/' !in name
    requires tail == "" || tail[0] == '/'
    ensures Slot(name + tail) == name && Trailer(name + tail) == tail
    decreases |name|
  {
    if |name| == 0 {
      assert name + tail == tail;
    } else {
      assert (name + tail)[1..] == name[1..] + tail;
      assert name[0] in name;
      assert forall c :: c in name[1..] ==> c in name;
      TrailingDropped(name[1..], tail);
    }
  }

  /** A trailer holding a segment other than empty or `.` (a real name, or
      `..`) is not dropped. */
  lemma {:induction false} RealSegmentKept(pre: string, seg: string, post: string)
    requires |seg| > 0 && '/' !in seg && seg != "."
    requires post == "" || post[0] == '/'
    ensures !Dropped(pre + "/" + seg + post)
  {
    var s := pre + "/" + seg + post;
    var k := |pre| + 1;
    assert s[k] == seg[0];
    assert |seg| == 1 ==> seg == [seg[0]];
    if s[k] != '.' {
      assert !(s[k] == '/' || s[k] == '.') by { assert seg[0] in seg; }
    } else {
      assert s[k + 1] == seg[1];
      assert seg[1] in seg;
    }
  }

  /** `dir / seg` for one string operand: a segment that starts with `/`
      is absolute and replaces the directory. */
  function Join(dir: string, seg: string): string
  {
    if |seg| > 0 && seg[0] == '/' then seg else dir + "/" + seg
  }

  /** The root a name starting with `/` is left with when all its segments
      are dropped: POSIX keeps exactly two leading separators, and any
      other number becomes one. */
  function Root(name: string): string
  {
    if 2 <= |name| && name[1] == '/' && (|name| == 2 || name[2] != '/') then "//" else "/"
  }

  /** NAME_MAX of Linux file systems: the longest segment, in bytes. */
  const NameMax := 255

  /** Bytes one character takes in UTF-8, the encoding of file names. */
  function Utf8Width(c: char): nat
  {
    if c as int < 0x80 then 1
    else if c as int < 0x800 then 2
    else if c as int < 0x10000 then 3
    else 4
  }

  /** Bytes of the UTF-8 encoding of a string. */
  function Utf8Length(s: string): (r: nat)
    ensures |s| <= r <= 4 * |s|
    decreases |s|
  {
    if |s| == 0 then 0 else Utf8Width(s[0]) + Utf8Length(s[1..])
  }

  /** The encoded length of a concatenation is the sum of the parts'. */
  lemma {:induction false} Utf8LengthAppend(a: string, b: string)
    ensures Utf8Length(a + b) == Utf8Length(a) + Utf8Length(b)
    decreases |a|
  {
    if |a| > 0 {
      assert (a + b)[0] == a[0] && (a + b)[1..] == a[1..] + b;
      Utf8LengthAppend(a[1..], b);
    } else {
      assert a + b == b;
    }
  }

  /** An ASCII string takes one byte per character. */
  lemma {:induction false} Utf8LengthAscii(s: string)
    requires forall i :: 0 <= i < |s| ==> s[i] as int < 0x80
    ensures Utf8Length(s) == |s|
    decreases |s|
  {
    if |s| > 0 {
      assert forall i :: 0 <= i < |s[1..]| ==> s[1..][i] == s[i + 1];
      Utf8LengthAscii(s[1..]);
    }
  }
}

=== FILE: pipeline.dfy ===
/** `process_apk_task` as a pure function. The external tools (apktool,
    the HTTP download, `file`, zipalign, apksigner), the MD5 digest, the
    clock and `index.json` are inputs; the result is the task record, the
    unpacked `lib/<abi>` directory, the index on disk and the trace of steps
    the run took. */
module Pipeline {
  import opened Wrappers
  import opened Text
  import opened Architecture
  import opened Entries
  import opened ProcessingIndex
  import opened Tasks
  import opened Paths

  type Bytes = seq<bv8>

  /** The `so_files` object: component file name and download URL, in the
      object's key order. */
  type SoFiles = seq<(string, string)>

  /** The three `time.time()` readings of one run: start, the index entry's
      timestamp, and the end (on whichever path ends the run). */
  datatype Clock = Clock(start: nat, indexed: nat, end: nat)

  /** What the outside world answers during one run. */
  datatype Tools = Tools(
    decodeOk: bool,                               // apktool d succeeded
    unpackedLib: map<string, Bytes>,              // lib/<abi> of the decoded APK
    download: string -> Option<Bytes>,            // GET url; None on any HTTP error
    describe: Bytes -> Option<string>,            // what `file` says after "path: "; None if it failed
    md5: Bytes -> string,                         // hexdigest of a file
    build: map<string, Bytes> -> Option<Bytes>,   // apktool b over the modified tree
    align: Bytes -> Option<Bytes>,                // zipalign
    sign: Bytes -> Option<Bytes>,                 // apksigner
    storedIndex: RawIndex,                        // index.json when the run loads it
    saveError: Option<string>,                    // message of a failing save_index
    clock: Clock)

  /** The exceptions the try block raises. */
  datatype Failure =
    | DecodeFailed
    | NoValidSoFiles
    | DownloadFailed(name: string, url: string)
    | ArchUndetected(name: string)
    | ArchMismatch(name: string, requested: Arch, found: Arch)
    | BuildFailed
    | AlignFailed
    | SignFailed
    | IndexSaveFailed(message: string)
    | IsDirectory(path: string)

  /** `str(e)`: the text stored as the task's `reason`. */
  function Message(f: Failure): string
  {
    match f
    case DecodeFailed => "Failed to decode APK"
    case NoValidSoFiles => "No valid SO files to process. All URLs are empty."
    case DownloadFailed(name, url) => "Failed to download SO file: " + name + " from " + url
    case ArchUndetected(name) => "Failed to detect architecture for SO file: " + name
    case ArchMismatch(name, requested, found) =>
      "Architecture mismatch for " + name + ": requested " + ArchName(requested) + ", but file is " + ArchName(found)
    case BuildFailed => "Failed to rebuild APK"
    case AlignFailed => "Failed to align APK"
    case SignFailed => "Failed to sign APK"
    case IndexSaveFailed(message) => message
    case IsDirectory(path) => "[Errno 21] Is a directory: '" + path + "'"
  }

  /** The observable steps of a run, in the order they happen. */
  datatype Step =
    | Started
    | Decoded
    | Downloaded(name: string)
    | Verified(name: string)
    | Copied(name: string)
    | Built
    | Aligned
    | Signed
    | IndexSaved
    | Completed
    | FailedWith(failure: Failure)

  predicate FetchStep(s: Step)
  {
    s.Downloaded? || s.Verified?
  }

  /** The names of the components copied into the APK, in order. */
  function Copies(t: seq<Step>): (r: seq<string>)
    ensures |r| <= |t|
  {
    if |t| == 0 then []
    else (if t[0].Copied? then [t[0].name] else []) + Copies(t[1..])
  }

  /** The names of the components whose architecture was verified, in order. */
  function Verifications(t: seq<Step>): (r: seq<string>)
    ensures |r| <= |t|
  {
    if |t| == 0 then []
    else (if t[0].Verified? then [t[0].name] else []) + Verifications(t[1..])
  }

  lemma {:induction false} CopiesAppend(a: seq<Step>, b: seq<Step>)
    ensures Copies(a + b) == Copies(a) + Copies(b)
    decreases |a|
  {
    if |a| == 0 {
      assert a + b == b;
    } else {
      assert (a + b)[0] == a[0];
      assert (a + b)[1..] == a[1..] + b;
      CopiesAppend(a[1..], b);
      var h := if a[0].Copied? then [a[0].name] else [];
      assert Copies(a + b) == h + Copies(a[1..] + b);
      assert h + (Copies(a[1..]) + Copies(b)) == (h + Copies(a[1..])) + Copies(b);
    }
  }

  lemma {:induction false} VerificationsAppend(a: seq<Step>, b: seq<Step>)
    ensures Verifications(a + b) == Verifications(a) + Verifications(b)
    decreases |a|
  {
    if |a| == 0 {
      assert a + b == b;
    } else {
      assert (a + b)[0] == a[0];
      assert (a + b)[1..] == a[1..] + b;
      VerificationsAppend(a[1..], b);
      var h := if a[0].Verified? then [a[0].name] else [];
      assert Verifications(a + b) == h + Verifications(a[1..] + b);
      assert h + (Verifications(a[1..]) + Verifications(b)) == (h + Verifications(a[1..])) + Verifications(b);
    }
  }

  /** No step of `t` copies a component. */
  predicate NoCopies(t: seq<Step>)
  {
    forall i :: 0 <= i < |t| ==> !t[i].Copied?
  }

  lemma {:induction false} NoCopiesHasNoCopies(t: seq<Step>)
    requires NoCopies(t)
    ensures Copies(t) == []
    decreases |t|
  {
    if |t| > 0 {
      NoCopiesHasNoCopies(t[1..]);
    }
  }

  lemma {:induction false} NoVerifiedSteps(t: seq<Step>)
    requires forall i :: 0 <= i < |t| ==> !t[i].Verified?
    ensures Verifications(t) == []
    decreases |t|
  {
    if |t| > 0 {
      NoVerifiedSteps(t[1..]);
    }
  }

  /** Once a component has been copied, no download or verification follows. */
  ghost predicate FetchesBeforeCopies(t: seq<Step>)
  {
    forall i, j :: 0 <= i < j < |t| && t[i].Copied? ==> !FetchStep(t[j])
  }

  /** A component entry counts when its URL is not blank (`v and v.strip()`). */
  predicate IsValid(item: (string, string))
  {
    !IsBlank(item.1)
  }

  /** Names of the `valid_so_files` entries, in key order. */
  function ValidNames(items: SoFiles): (r: seq<string>)
    ensures |r| <= |items|
  {
    if |items| == 0 then []
    else (if IsValid(items[0]) then [items[0].0] else []) + ValidNames(items[1..])
  }

  /** A name is listed exactly when some entry with that name has a
      non-blank URL. */
  lemma {:induction false} ValidNamesMembers(items: SoFiles)
    ensures forall n :: n in ValidNames(items) <==> exists i :: 0 <= i < |items| && items[i].0 == n && IsValid(items[i])
    decreases |items|
  {
    if |items| > 0 {
      ValidNamesMembers(items[1..]);
      assert forall i :: 1 <= i < |items| ==> items[i] == items[1..][i - 1];
    }
  }

  /** An object whose every URL is blank has no valid entry. */
  lemma {:induction false} AllBlankNoValidNames(items: SoFiles)
    requires forall i :: 0 <= i < |items| ==> IsBlank(items[i].1)
    ensures ValidNames(items) == []
    decreases |items|
  {
    if |items| > 0 {
      assert forall i :: 0 <= i < |items[1..]| ==> items[1..][i] == items[i + 1];
      AllBlankNoValidNames(items[1..]);
    }
  }

  /** The run's working directory, `workdir/temp/{pkg_name}_{file_md5}`
      (the package-name layout is switched on); a package name starting
      with `/` makes it absolute, and it replaces `workdir/temp`. */
  function WorkPath(task: TaskInfo): string
  {
    Join("workdir/temp", task.pkgName + "_" + task.fileMd5Before)
  }

  /** The `lib/<abi>` directory of the decoded APK, which the run creates
      if the APK had none. */
  function LibPath(work: string, arch: Arch): string
  {
    work + "/extracted/lib/" + ArchName(arch)
  }

  /** The file a component is downloaded to: `downloaded_` followed by the
      slot of its name. */
  function DownloadName(name: string): string
  {
    "downloaded_" + Slot(name)
  }

  /** Where a component is downloaded to, and the path `file` is run on. */
  function DownloadPath(work: string, name: string): string
  {
    work + "/" + DownloadName(name)
  }

  /** The download file can be opened for writing: nothing but empty and
      `.` segments follows the slot (a real segment would need a
      `downloaded_...` directory, which never exists), the name holds no
      NUL, and the file name fits the file system. */
  predicate Storable(name: string)
  {
    && Dropped(Trailer(name))
    && '\0' !in name
    && |"downloaded_"| + Utf8Length(Slot(name)) <= NameMax
  }

  /** The download file name is `downloaded_`'s 11 bytes and the slot's. */
  lemma DownloadNameBytes(name: string)
    ensures Utf8Length(DownloadName(name)) == |"downloaded_"| + Utf8Length(Slot(name))
  {
    Utf8LengthAppend("downloaded_", Slot(name));
    PrefixBytes();
  }

  lemma PrefixBytes()
    ensures Utf8Length("downloaded_") == |"downloaded_"|
  {
    Utf8LengthAscii("downloaded_");
  }

  /** `download_file` into the download path: the server's answer when the
      file can be written, and failure otherwise, whatever the server
      answers. */
  function Fetch(name: string, url: string, tools: Tools): Option<Bytes>
  {
    if Storable(name) then tools.download(url) else None
  }

  /** `lib_path / name` is a directory: `lib/<abi>` itself (an empty or `.`
      slot), its parent (`..`), or the root (a name starting with `/`).
      All of them exist, so `md5sum` opens a directory. */
  predicate SlotIsDirectory(name: string)
  {
    Slot(name) == "" || Slot(name) == "." || Slot(name) == ".."
  }

  /** The path `md5sum` fails to open for such a name. */
  function DirectorySlotPath(work: string, arch: Arch, name: string): string
  {
    if |name| > 0 && name[0] == '/' then Root(name)
    else if Slot(name) == ".." then LibPath(work, arch) + "/.."
    else LibPath(work, arch)
  }

  /** Download one component, detect its architecture, compare it with the
      requested one and read the digest of the slot it will replace; the
      downloaded bytes when all of these succeed. */
  function CheckComponent(name: string, url: string, work: string, arch: Arch, tools: Tools): Result<Bytes, Failure>
  {
    match Fetch(name, url, tools)
    case None => Err(DownloadFailed(name, url))
    case Some(b) =>
      match DetectSoArchitecture(DownloadPath(work, name), tools.describe(b))
      case None => Err(ArchUndetected(name))
      case Some(found) =>
        if found != arch then Err(ArchMismatch(name, arch, found))
        else if SlotIsDirectory(name) then Err(IsDirectory(DirectorySlotPath(work, arch, name)))
        else Ok(b)
  }

  /** A component name starting with `/` never passes. When its download
      and `file` succeed with the requested architecture, `md5sum` fails on
      the root directory, `//` for exactly two leading separators and `/`
      otherwise, and not on anything under the work directory. */
  lemma AbsoluteNameReadsRoot(name: string, url: string, work: string, arch: Arch, tools: Tools)
    requires |name| > 0 && name[0] == '/'
    ensures CheckComponent(name, url, work, arch, tools).Err?
    ensures CheckComponent(name, url, work, arch, tools).error.IsDirectory? <==>
      && Fetch(name, url, tools).Some?
      && DetectSoArchitecture(DownloadPath(work, name), tools.describe(Fetch(name, url, tools).value)) == Some(arch)
    ensures CheckComponent(name, url, work, arch, tools).error.IsDirectory? ==>
      var path := CheckComponent(name, url, work, arch, tools).error.path;
      && (path == "/" || path == "//")
      && (path == "//" <==> 2 <= |name| && name[1] == '/' && (|name| == 2 || name[2] != '/'))
  {
    assert Slot(name) == "";
  }

  /** The working directory lies under `workdir/temp` exactly when the
      package name does not start with `/`, and it always ends with
      `{pkg_name}_{file_md5}`. */
  lemma WorkPathPlacement(task: TaskInfo)
    ensures "workdir/temp/" <= WorkPath(task) <==> !(|task.pkgName| > 0 && task.pkgName[0] == '/')
    ensures var w, n := WorkPath(task), task.pkgName + "_" + task.fileMd5Before;
      |n| <= |w| && w[|w| - |n|..] == n
  {
    var n := task.pkgName + "_" + task.fileMd5Before;
    if |task.pkgName| > 0 && task.pkgName[0] == '/' {
      assert WorkPath(task)[0] == '/';
    } else {
      assert WorkPath(task) == "workdir/temp/" + n;
    }
  }

  /** A name with a real segment after its first `/` (a name, or `..`)
      fails at its download, before `file` ever runs on it. */
  lemma NestedNameFails(dir: string, seg: string, post: string, url: string, work: string, arch: Arch, tools: Tools)
    requires '/' !in dir && '/' !in seg && seg != "" && seg != "."
    requires post == "" || post[0] == '/'
    ensures CheckComponent(dir + "/" + seg + post, url, work, arch, tools) == Err(DownloadFailed(dir + "/" + seg + post, url))
  {
    var name := dir + "/" + seg + post;
    TrailingDropped(dir, "/" + seg + post);
    assert name == dir + ("/" + seg + post);
    RealSegmentKept("", seg, post);
    assert "" + "/" + seg + post == Trailer(name);
  }

  /** A name holding NUL, or one whose download file name is longer than
      NAME_MAX bytes, fails at its download too. */
  lemma UnstorableNameFails(name: string, url: string, work: string, arch: Arch, tools: Tools)
    requires '\0' in name || ('/' !in name && Utf8Length("downloaded_" + name) > NameMax)
    ensures CheckComponent(name, url, work, arch, tools) == Err(DownloadFailed(name, url))
  {
    if '\0' !in name {
      PlainName(name);
      DownloadNameBytes(name);
    }
  }

  /** Separators and `.` segments after a name are dropped: the component
      is downloaded to the same file, checked the same way and stored in
      the same slot as the plain name. */
  lemma TrailingSeparatorsIgnored(name: string, tail: string, url: string, work: string, arch: Arch, tools: Tools)
    requires '/' !in name && Dropped(tail) && (tail == "" || tail[0] == '/')
    ensures Slot(name + tail) == Slot(name) == name
    ensures Fetch(name + tail, url, tools) == Fetch(name, url, tools)
    ensures DownloadPath(work, name + tail) == DownloadPath(work, name)
    ensures CheckComponent(name + tail, url, work, arch, tools).Ok? <==> CheckComponent(name, url, work, arch, tools).Ok?
  {
    TrailingDropped(name, tail);
    PlainName(name);
    assert '\0' in name + tail <==> '\0' in name by {
      assert forall i :: 0 <= i < |tail| ==> tail[i] != '\0';
      assert forall c :: c in name + tail <==> c in name || c in tail;
    }
    assert Storable(name + tail) <==> Storable(name);
    assert SlotIsDirectory(name + tail) <==> SlotIsDirectory(name);
    CheckComponentOkIff(name + tail, url, work, arch, tools);
    CheckComponentOkIff(name, url, work, arch, tools);
  }

  /** Because `file` prints the path first, a component whose name says
      `arm64` or `aarch64` passes an `arm64-v8a` check whatever `file` says
      of its contents, as long as it says something. */
  lemma Arm64NamePasses(name: string, url: string, work: string, tools: Tools)
    requires Names64(name)
    requires Fetch(name, url, tools).Some? && tools.describe(Fetch(name, url, tools).value).Some?
    ensures CheckComponent(name, url, work, Arm64V8a, tools) == Ok(Fetch(name, url, tools).value)
  {
    SlotNames64(name);
    Names64Within(work + "/downloaded_", Slot(name), "");
    assert work + "/downloaded_" + Slot(name) + "" == DownloadPath(work, name);
    DetectReadsPath(DownloadPath(work, name), tools.describe(Fetch(name, url, tools).value).value);
    assert !SlotIsDirectory(name) by {
      assert !Names64("") && !Names64(".") && !Names64("..") by {
        assert Lower("") == "" && Lower(".") == "." && Lower("..") == "..";
        AbsentCharRulesOut("..", "arm64", '6');
        AbsentCharRulesOut("..", "aarch64", '6');
        AbsentCharRulesOut(".", "arm64", '6');
        AbsentCharRulesOut(".", "aarch64", '6');
        AbsentCharRulesOut("", "arm64", '6');
        AbsentCharRulesOut("", "aarch64", '6');
      }
    }
  }

  /** What names a 64-bit ABI in a storable name does so in its slot: the
      dropped segments after it hold no letters. */
  lemma SlotNames64(name: string)
    requires Dropped(Trailer(name)) && Names64(name)
    ensures Names64(Slot(name))
  {
    SlotSplit(name);
    if Trailer(name) != "" {
      var rest := Trailer(name)[1..];
      assert '6' !in rest by {
        forall i | 0 <= i < |rest| ensures rest[i] != '6' {
          assert rest[i] == '/' || rest[i] == '.';
        }
      }
      Names64BeforeSeparator(Slot(name), rest);
    }
  }

  /** A 64-bit ABI name in `a/rest` lies in `a` when `rest` has no digit 6. */
  lemma Names64BeforeSeparator(a: string, rest: string)
    requires '6' !in rest && Names64(a + "/" + rest)
    ensures Names64(a)
  {
    LowerAppend(a + "/", rest);
    LowerAppend(a, "/");
    assert Lower("/") == "/";
    LowerAvoids(rest, '6');
    var pat := if Contains(Lower(a + "/" + rest), "arm64") then "arm64" else "aarch64";
    assert Lower(a + "/" + rest) == Lower(a) + "/" + Lower(rest);
    AbsentCharRulesOut(Lower(rest), pat, '6');
    ContainsSplits(Lower(a), "/", Lower(rest), pat);
  }

  /** Likewise, a package name that says `arm64` or `aarch64` makes every
      component of an `armeabi-v7a` request fail, whatever its contents. */
  lemma Arm64PackageRejectsArmv7(task: TaskInfo, name: string, url: string, tools: Tools)
    requires Names64(task.pkgName)
    requires Fetch(name, url, tools).Some? && tools.describe(Fetch(name, url, tools).value).Some?
    ensures CheckComponent(name, url, WorkPath(task), ArmeabiV7a, tools) == Err(ArchMismatch(name, ArmeabiV7a, Arm64V8a))
  {
    var rest := "_" + task.fileMd5Before + "/" + DownloadName(name);
    var pre := if |task.pkgName| > 0 && task.pkgName[0] == '/' then "" else "workdir/temp/";
    Names64Within(pre, task.pkgName, rest);
    assert pre + task.pkgName + rest == DownloadPath(WorkPath(task), name);
    DetectReadsPath(DownloadPath(WorkPath(task), name), tools.describe(Fetch(name, url, tools).value).value);
  }

  /** What the download-and-verify loop leaves behind: the downloaded files
      by name, the `md5_before` / `md5_after` record, and its steps. */
  datatype Verification = Verification(
    downloads: map<string, Bytes>,
    md5Before: map<string, string>,
    md5After: map<string, string>,
    steps: seq<Step>)

  /** An aborted loop: the failure and the steps taken before it. */
  datatype Abort = Abort(failure: Failure, steps: seq<Step>)

  /** One non-blank entry of the first loop, given the outcome of its own
      check and of the rest of the loop: its failure aborts, otherwise its
      file and digests join the rest (later entries win on a repeated name,
      as in the dict they are stored in). */
  function Extend(name: string, check: Result<Bytes, Failure>, rest: Result<Verification, Abort>,
                  tools: Tools): Result<Verification, Abort>
  {
    match check
    case Err(f) =>
      var taken := if f.DownloadFailed? then [] else if f.IsDirectory? then [Downloaded(name), Verified(name)] else [Downloaded(name)];
      Err(Abort(f, taken))
    case Ok(b) =>
      var before := if Slot(name) in tools.unpackedLib then tools.md5(tools.unpackedLib[Slot(name)]) else "none";
      var mine := [Downloaded(name), Verified(name)];
      match rest
      case Err(a) => Err(Abort(a.failure, mine + a.steps))
      case Ok(v) =>
        Ok(Verification(
          map[name := b] + v.downloads,
          map[name := before] + v.md5Before,
          map[name := tools.md5(b)] + v.md5After,
          mine + v.steps))
  }

  /** A successful step adds its own name to every map of the rest. */
  lemma ExtendOk(name: string, check: Result<Bytes, Failure>, rest: Result<Verification, Abort>, tools: Tools)
    requires Extend(name, check, rest, tools).Ok?
    ensures check.Ok? && rest.Ok?
    ensures var v := Extend(name, check, rest, tools).value;
      && v.downloads == map[name := check.value] + rest.value.downloads
      && v.downloads.Keys == {name} + rest.value.downloads.Keys
      && v.md5Before.Keys == {name} + rest.value.md5Before.Keys
      && v.md5After.Keys == {name} + rest.value.md5After.Keys
      && v.steps == [Downloaded(name), Verified(name)] + rest.value.steps
  {
    var b, w := check.value, rest.value;
    var v := Extend(name, check, rest, tools).value;
    MergeKeys(name, b, w.downloads);
    MergeKeys(name, v.md5Before[name], w.md5Before);
    MergeKeys(name, tools.md5(b), w.md5After);
  }

  lemma MergeKeys<V>(k: string, x: V, m: map<string, V>)
    ensures (map[k := x] + m).Keys == {k} + m.Keys
  {
  }

  /** The first loop over `so_files`: skip blank URLs, and for every other
      entry download, verify and record digests; the first failure aborts. */
  function VerifyAll(items: SoFiles, work: string, arch: Arch, tools: Tools): (r: Result<Verification, Abort>)
    decreases |items|
  {
    if |items| == 0 then Ok(Verification(map[], map[], map[], []))
    else if IsBlank(items[0].1) then VerifyAll(items[1..], work, arch, tools)
    else Extend(items[0].0, CheckComponent(items[0].0, items[0].1, work, arch, tools), VerifyAll(items[1..], work, arch, tools), tools)
  }

  lemma {:induction false} NameNotListed(items: SoFiles, n: string)
    requires forall i :: 0 <= i < |items| ==> items[i].0 != n
    ensures n !in ValidNames(items)
    decreases |items|
  {
    if |items| > 0 {
      assert forall i :: 0 <= i < |items[1..]| ==> items[1..][i] == items[i + 1];
      NameNotListed(items[1..], n);
    }
  }

  /** A completed loop has a file and both digests for exactly the non-blank
      names. */
  lemma {:induction false} VerifyAllOkKeys(items: SoFiles, work: string, arch: Arch, tools: Tools)
    requires VerifyAll(items, work, arch, tools).Ok?
    ensures var v := VerifyAll(items, work, arch, tools).value;
      && (forall n :: n in v.downloads <==> n in ValidNames(items))
      && v.md5Before.Keys == v.downloads.Keys == v.md5After.Keys
    decreases |items|
  {
    if |items| > 0 && !IsBlank(items[0].1) {
      var rest := VerifyAll(items[1..], work, arch, tools);
      ExtendOk(items[0].0, CheckComponent(items[0].0, items[0].1, work, arch, tools), rest, tools);
      VerifyAllOkKeys(items[1..], work, arch, tools);
      assert ValidNames(items) == [items[0].0] + ValidNames(items[1..]);
    } else if |items| > 0 {
      VerifyAllOkKeys(items[1..], work, arch, tools);
    }
  }

  /** The component passes the download-and-verify stage. */
  predicate Passes(item: (string, string), work: string, arch: Arch, tools: Tools)
  {
    CheckComponent(item.0, item.1, work, arch, tools).Ok?
  }

  /** Every entry with a non-blank URL passes. */
  predicate AllPass(items: SoFiles, work: string, arch: Arch, tools: Tools)
  {
    forall i :: 0 <= i < |items| && IsValid(items[i]) ==> Passes(items[i], work, arch, tools)
  }

  /** A completed loop verified every non-blank entry, in key order. */
  lemma {:induction false} VerifyAllOkSteps(items: SoFiles, work: string, arch: Arch, tools: Tools)
    requires VerifyAll(items, work, arch, tools).Ok?
    ensures var v := VerifyAll(items, work, arch, tools).value;
      && Verifications(v.steps) == ValidNames(items)
      && (forall i :: 0 <= i < |v.steps| ==> FetchStep(v.steps[i]))
      && AllPass(items, work, arch, tools)
  {
    VerifyAllOkTrace(items, work, arch, tools);
    VerifyAllOkPasses(items, work, arch, tools);
  }

  lemma {:induction false} VerifyAllOkTrace(items: SoFiles, work: string, arch: Arch, tools: Tools)
    requires VerifyAll(items, work, arch, tools).Ok?
    ensures var v := VerifyAll(items, work, arch, tools).value;
      && Verifications(v.steps) == ValidNames(items)
      && (forall i :: 0 <= i < |v.steps| ==> FetchStep(v.steps[i]))
    decreases |items|
  {
    if |items| > 0 {
      var (name, url) := items[0];
      VerifyAllOkTrace(items[1..], work, arch, tools);
      if !IsBlank(url) {
        var rest := VerifyAll(items[1..], work, arch, tools);
        ExtendOk(name, CheckComponent(name, url, work, arch, tools), rest, tools);
        assert ValidNames(items) == [name] + ValidNames(items[1..]);
        FetchedTrace(name, rest.value.steps);
      }
    }
  }

  /** Downloading and verifying one more component puts its name in front
      of the verified names, and the trace still only fetches. */
  lemma FetchedTrace(name: string, steps: seq<Step>)
    requires forall i :: 0 <= i < |steps| ==> FetchStep(steps[i])
    ensures var t := [Downloaded(name), Verified(name)] + steps;
      && Verifications(t) == [name] + Verifications(steps)
      && forall i :: 0 <= i < |t| ==> FetchStep(t[i])
  {
    var mine := [Downloaded(name), Verified(name)];
    VerificationsAppend(mine, steps);
    assert forall i :: 2 <= i < |mine + steps| ==> (mine + steps)[i] == steps[i - 2];
  }

  lemma {:induction false} VerifyAllOkPasses(items: SoFiles, work: string, arch: Arch, tools: Tools)
    requires VerifyAll(items, work, arch, tools).Ok?
    ensures AllPass(items, work, arch, tools)
    decreases |items|
  {
    if |items| > 0 {
      var (name, url) := items[0];
      if !IsBlank(url) {
        ExtendOk(name, CheckComponent(name, url, work, arch, tools), VerifyAll(items[1..], work, arch, tools), tools);
      }
      VerifyAllOkPasses(items[1..], work, arch, tools);
      AllPassCons(items, work, arch, tools);
    }
  }

  /** Every entry passes when the first one does (or is blank) and every
      later one does. */
  lemma AllPassCons(items: SoFiles, work: string, arch: Arch, tools: Tools)
    requires |items| > 0
    requires IsValid(items[0]) ==> Passes(items[0], work, arch, tools)
    requires AllPass(items[1..], work, arch, tools)
    ensures AllPass(items, work, arch, tools)
  {
    assert forall i :: 1 <= i < |items| ==> items[i] == items[1..][i - 1];
  }

  /** Each file a completed loop keeps was classified as the requested
      architecture from the output of `file` run on its download path, path
      included. */
  lemma {:induction false} VerifyAllOkArchitecture(items: SoFiles, work: string, arch: Arch, tools: Tools)
    requires VerifyAll(items, work, arch, tools).Ok?
    ensures var v := VerifyAll(items, work, arch, tools).value;
      forall n :: n in v.downloads ==>
        DetectSoArchitecture(DownloadPath(work, n), tools.describe(v.downloads[n])) == Some(arch)
    decreases |items|
  {
    if |items| > 0 {
      VerifyAllOkArchitecture(items[1..], work, arch, tools);
      var (name, url) := items[0];
      if !IsBlank(url) {
        var rest := VerifyAll(items[1..], work, arch, tools);
        ExtendOk(name, CheckComponent(name, url, work, arch, tools), rest, tools);
        CheckComponentOkIff(name, url, work, arch, tools);
        ClassifiedMerge(work, arch, tools, name, CheckComponent(name, url, work, arch, tools).value, rest.value.downloads);
      }
    }
  }

  /** A component passes exactly when it was downloaded, classified as the
      requested architecture, and does not name a directory; what passes is
      the download. */
  lemma CheckComponentOkIff(name: string, url: string, work: string, arch: Arch, tools: Tools)
    ensures CheckComponent(name, url, work, arch, tools).Ok? <==>
      && Fetch(name, url, tools).Some?
      && DetectSoArchitecture(DownloadPath(work, name), tools.describe(Fetch(name, url, tools).value)) == Some(arch)
      && !SlotIsDirectory(name)
    ensures CheckComponent(name, url, work, arch, tools).Ok? ==>
      Fetch(name, url, tools) == Some(CheckComponent(name, url, work, arch, tools).value)
  {
  }

  /** Adding one classified download to classified downloads keeps every
      entry classified. */
  lemma ClassifiedMerge(work: string, arch: Arch, tools: Tools, name: string, b: Bytes, m: map<string, Bytes>)
    requires DetectSoArchitecture(DownloadPath(work, name), tools.describe(b)) == Some(arch)
    requires forall n :: n in m ==> DetectSoArchitecture(DownloadPath(work, n), tools.describe(m[n])) == Some(arch)
    ensures forall n :: n in map[name := b] + m ==>
      DetectSoArchitecture(DownloadPath(work, n), tools.describe((map[name := b] + m)[n])) == Some(arch)
  {
  }

  /** The names of a JSON object are distinct. */
  predicate UniqueNames(items: SoFiles)
  {
    forall i, j :: 0 <= i < j < |items| ==> items[i].0 != items[j].0
  }

  /** Each file a completed loop keeps is what the download of its own URL
      returned. */
  lemma {:induction false} VerifyAllOkDownloads(items: SoFiles, work: string, arch: Arch, tools: Tools)
    requires UniqueNames(items)
    requires VerifyAll(items, work, arch, tools).Ok?
    ensures var v := VerifyAll(items, work, arch, tools).value;
      forall i :: 0 <= i < |items| && IsValid(items[i]) ==>
        items[i].0 in v.downloads && Fetch(items[i].0, items[i].1, tools) == Some(v.downloads[items[i].0])
    decreases |items|
  {
    if |items| > 0 {
      var v := VerifyAll(items, work, arch, tools).value;
      VerifyAllOkDownloads(items[1..], work, arch, tools);
      var w := VerifyAll(items[1..], work, arch, tools).value;
      if IsValid(items[0]) {
        ExtendOk(items[0].0, CheckComponent(items[0].0, items[0].1, work, arch, tools), VerifyAll(items[1..], work, arch, tools), tools);
        CheckComponentOkIff(items[0].0, items[0].1, work, arch, tools);
        VerifyAllOkKeys(items[1..], work, arch, tools);
        assert forall i :: 0 <= i < |items[1..]| ==> items[1..][i] == items[i + 1];
        NameNotListed(items[1..], items[0].0);
      }
      forall i | 0 <= i < |items| && IsValid(items[i])
        ensures items[i].0 in v.downloads && Fetch(items[i].0, items[i].1, tools) == Some(v.downloads[items[i].0])
      {
        if i > 0 {
          assert items[i] == items[1..][i - 1];
          assert items[0].0 != items[i].0;
        }
      }
    }
  }

  /** An aborted loop stopped at the first non-blank entry that failed, with
      the failure that entry produced, before any copy. */
  lemma {:induction false} VerifyAllErr(items: SoFiles, work: string, arch: Arch, tools: Tools)
    requires VerifyAll(items, work, arch, tools).Err?
    ensures var a := VerifyAll(items, work, arch, tools).error;
      && (forall i :: 0 <= i < |a.steps| ==> FetchStep(a.steps[i]))
      && exists i :: && 0 <= i < |items| && IsValid(items[i])
                     && CheckComponent(items[i].0, items[i].1, work, arch, tools) == Err(a.failure)
                     && forall j :: 0 <= j < i && IsValid(items[j]) ==> Passes(items[j], work, arch, tools)
    decreases |items|
  {
    var a := VerifyAll(items, work, arch, tools).error;
    var (name, url) := items[0];
    assert forall i :: 1 <= i < |items| ==> items[i] == items[1..][i - 1];
    if IsBlank(url) || CheckComponent(name, url, work, arch, tools).Ok? {
      VerifyAllErr(items[1..], work, arch, tools);
      var b := VerifyAll(items[1..], work, arch, tools).error;
      var i :| && 0 <= i < |items[1..]| && IsValid(items[1..][i])
               && CheckComponent(items[1..][i].0, items[1..][i].1, work, arch, tools) == Err(b.failure)
               && forall j :: 0 <= j < i && IsValid(items[1..][j]) ==> Passes(items[1..][j], work, arch, tools);
      assert items[i + 1] == items[1..][i];
      assert forall j :: 1 <= j < i + 1 && IsValid(items[j]) ==> Passes(items[j], work, arch, tools);
    } else {
      assert CheckComponent(items[0].0, items[0].1, work, arch, tools) == Err(a.failure);
    }
  }

  /** The loop completes exactly when every non-blank entry passes. */
  lemma VerifyAllOkIff(items: SoFiles, work: string, arch: Arch, tools: Tools)
    ensures VerifyAll(items, work, arch, tools).Ok? <==> AllPass(items, work, arch, tools)
  {
    if VerifyAll(items, work, arch, tools).Ok? {
      VerifyAllOkSteps(items, work, arch, tools);
    } else {
      VerifyAllErr(items, work, arch, tools);
    }
  }

  /** The second loop over `so_files`: copy every downloaded file over its
      slot in `lib/<abi>`. */
  function Commit(items: SoFiles, downloads: map<string, Bytes>, lib: map<string, Bytes>): map<string, Bytes>
    requires forall n :: n in ValidNames(items) ==> n in downloads
  {
    if |items| == 0 then lib
    else
      assert forall n :: n in ValidNames(items[1..]) ==> n in ValidNames(items);
      var (name, url) := items[0];
      if IsBlank(url) then Commit(items[1..], downloads, lib)
      else
        assert name in ValidNames(items);
        Commit(items[1..], downloads, lib[Slot(name) := downloads[name]])
  }

  function CopySteps(names: seq<string>): (r: seq<Step>)
    ensures |r| == |names|
    ensures forall i :: 0 <= i < |r| ==> r[i] == Copied(names[i])
  {
    seq(|names|, i requires 0 <= i < |names| => Copied(names[i]))
  }

  /** The last of `names` stored in slot `s`, whose copy is the one the
      slot keeps; None when no name is stored there. */
  function Owner(names: seq<string>, s: string): (r: Option<string>)
    ensures r.None? <==> forall i :: 0 <= i < |names| ==> Slot(names[i]) != s
    ensures r.Some? ==> exists i :: && 0 <= i < |names| && names[i] == r.value && Slot(r.value) == s
                                    && forall j :: i < j < |names| ==> Slot(names[j]) != s
    decreases |names|
  {
    if |names| == 0 then None
    else
      var later := Owner(names[1..], s);
      assert forall j :: 1 <= j < |names| ==> names[j] == names[1..][j - 1];
      if later.Some? then later
      else if Slot(names[0]) == s then Some(names[0])
      else None
  }

  /** After the copy loop, each slot of a non-blank name holds the download
      of the last non-blank name stored there, and every other entry of
      `lib/<abi>` is as it was. */
  lemma {:induction false} CommitContents(items: SoFiles, downloads: map<string, Bytes>, lib: map<string, Bytes>)
    requires forall n :: n in ValidNames(items) ==> n in downloads
    ensures var r := Commit(items, downloads, lib);
      var names := ValidNames(items);
      && (forall s :: s in r <==> s in lib || Owner(names, s).Some?)
      && (forall s :: Owner(names, s).Some? ==> Owner(names, s).value in downloads && r[s] == downloads[Owner(names, s).value])
      && (forall s :: s in lib && Owner(names, s).None? ==> r[s] == lib[s])
    decreases |items|
  {
    if |items| > 0 {
      var names, rest := ValidNames(items), ValidNames(items[1..]);
      assert forall n :: n in rest ==> n in names;
      if IsBlank(items[0].1) {
        CommitContents(items[1..], downloads, lib);
        assert names == rest;
      } else {
        var name := items[0].0;
        var lib' := lib[Slot(name) := downloads[name]];
        assert Commit(items, downloads, lib) == Commit(items[1..], downloads, lib');
        CommitContents(items[1..], downloads, lib');
        var r := Commit(items, downloads, lib);
        forall s: string
          ensures && (s in r <==> s in lib || Owner(names, s).Some?)
                  && (Owner(names, s).Some? ==> Owner(names, s).value in downloads && r[s] == downloads[Owner(names, s).value])
                  && (s in lib && Owner(names, s).None? ==> r[s] == lib[s])
        {
          OwnerStep(names, s);
          assert s in r <==> s in lib' || Owner(rest, s).Some?;
          assert s in lib' <==> s in lib || s == Slot(name);
          if Owner(rest, s).None? && s == Slot(name) {
            assert s in lib' && Owner(names, s) == Some(name);
          }
        }
      }
    }
  }

  /** The last non-blank entry whose name is stored in a slot owns it. */
  lemma {:induction false} LastEntryOwnsSlot(items: SoFiles, i: int)
    requires 0 <= i < |items| && IsValid(items[i])
    requires forall j :: i < j < |items| && IsValid(items[j]) ==> Slot(items[j].0) != Slot(items[i].0)
    ensures Owner(ValidNames(items), Slot(items[i].0)) == Some(items[i].0)
    decreases |items|
  {
    var s := Slot(items[i].0);
    var names, rest := ValidNames(items), ValidNames(items[1..]);
    assert forall j :: 1 <= j < |items| ==> items[j] == items[1..][j - 1];
    if i == 0 {
      ValidNamesMembers(items[1..]);
      forall k | 0 <= k < |rest| ensures Slot(rest[k]) != s {
        assert rest[k] in rest;
      }
      assert names == [items[0].0] + rest;
      OwnerStep(names, s);
    } else {
      LastEntryOwnsSlot(items[1..], i - 1);
      if IsValid(items[0]) {
        assert names == [items[0].0] + rest;
        OwnerStep(names, s);
      } else {
        assert names == rest;
      }
    }
  }

  /** The owner of a slot is the rest's owner, else the first name when it
      is stored there. */
  lemma OwnerStep(names: seq<string>, s: string)
    requires |names| > 0
    ensures Owner(names, s) == if Owner(names[1..], s).Some? then Owner(names[1..], s) else if Slot(names[0]) == s then Some(names[0]) else None
  {
  }

  lemma {:induction false} CopiesOfCopySteps(names: seq<string>)
    ensures Copies(CopySteps(names)) == names
    ensures Verifications(CopySteps(names)) == []
    decreases |names|
  {
    if |names| > 0 {
      assert CopySteps(names)[1..] == CopySteps(names[1..]);
      CopiesOfCopySteps(names[1..]);
    }
  }

  /** The state a run carries from step to step. `index` is `index.json` on
      disk. */
  datatype RunState = RunState(task: TaskInfo, lib: map<string, Bytes>, index: RawIndex, trace: seq<Step>)

  /** How the try block ends: normally, or by raising. */
  datatype Attempt = Finished(state: RunState) | Raised(failure: Failure, state: RunState)

  /** `str(PROCESSED_DIR / f"{task_id}_signed.apk")`. */
  function SignedApkPath(taskId: string): string
  {
    "workdir/processed/" + taskId + "_signed.apk"
  }

  /** The `task_entry` a successful run adds to the index. */
  function TaskEntry(task: TaskInfo, md5After: string, indexed: nat): Entry
  {
    Entry(task.taskId, task.pkgName, Some(ArchName(task.soArchitecture)),
          SignedApkPath(task.taskId), md5After, Some(indexed))
  }

  /** Load the index, add the entry under the original digest, save. */
  function Finalize(s: RunState, tools: Tools, md5After: string): Attempt
  {
    var updated := AddTask(Migrate(tools.storedIndex), s.task.fileMd5Before, TaskEntry(s.task, md5After, tools.clock.indexed));
    match tools.saveError
    case Some(msg) => Raised(IndexSaveFailed(msg), s)
    case None =>
      var end := tools.clock.end;
      Finished(RunState(
        s.task.(status := Complete, endTimestamp := Some(end), totalConsumeSeconds := Some(end - tools.clock.start)),
        s.lib, Persist(updated), s.trace + [IndexSaved, Completed]))
  }

  /** Rebuild, align, sign and digest the output APK. */
  function Repackage(s: RunState, tools: Tools): Attempt
  {
    match tools.build(s.lib)
    case None => Raised(BuildFailed, s)
    case Some(unsigned) =>
      var s := s.(trace := s.trace + [Built]);
      match tools.align(unsigned)
      case None => Raised(AlignFailed, s)
      case Some(aligned) =>
        var s := s.(trace := s.trace + [Aligned]);
        match tools.sign(aligned)
        case None => Raised(SignFailed, s)
        case Some(signed) =>
          var md5After := tools.md5(signed);
          Finalize(s.(task := s.task.(fileMd5After := Some(md5After)), trace := s.trace + [Signed]), tools, md5After)
  }

  /** The state after a successful decode: `lib/<abi>` as apktool
      unpacked it (created empty if the APK had none). */
  function AfterDecode(s: RunState, tools: Tools): RunState
  {
    s.(lib := tools.unpackedLib, trace := s.trace + [Decoded])
  }

  /** The body of the `try` block of `process_apk_task`. */
  function RunTry(s: RunState, soFiles: SoFiles, tools: Tools): Attempt
  {
    if !tools.decodeOk then Raised(DecodeFailed, s)
    else
      var s := AfterDecode(s, tools);
      if |ValidNames(soFiles)| == 0 then Raised(NoValidSoFiles, s)
      else
        match VerifyAll(soFiles, WorkPath(s.task), s.task.soArchitecture, tools)
        case Err(a) => Raised(a.failure, s.(trace := s.trace + a.steps))
        case Ok(v) =>
          VerifyAllOkKeys(soFiles, WorkPath(s.task), s.task.soArchitecture, tools);
          Repackage(Committed(s, soFiles, v), tools)
  }

  /** The `except` handler: FAILED, the reason, the end stamp, and a duration
      only when the start stamp is truthy (set and non-zero). */
  function RecordFailure(f: Failure, s: RunState, end: nat): RunState
  {
    var t := s.task.(status := Failed, reason := Some(Message(f)), endTimestamp := Some(end));
    var t := if t.startTimestamp.Some? && t.startTimestamp.value != 0
             then t.(totalConsumeSeconds := Some(end - t.startTimestamp.value)) else t;
    s.(task := t, trace := s.trace + [FailedWith(f)])
  }

  /** The two assignments before the `try`: PROCESSING and the start stamp.
      Nothing is unpacked yet. */
  function Begin(task: TaskInfo, tools: Tools): RunState
  {
    RunState(task.(status := Processing, startTimestamp := Some(tools.clock.start)),
             map[], tools.storedIndex, [Started])
  }

  /** The state the copy loop leaves: every downloaded file copied in, and
      the replacement record stored in the task. */
  function Committed(s: RunState, soFiles: SoFiles, v: Verification): RunState
    requires forall n :: n in ValidNames(soFiles) ==> n in v.downloads
  {
    var task := s.task.(realSoArchitecture := Some(s.task.soArchitecture),
                        soMd5Before := Some(v.md5Before), soMd5After := Some(v.md5After));
    RunState(task, Commit(soFiles, v.downloads, s.lib), s.index,
             s.trace + v.steps + CopySteps(ValidNames(soFiles)))
  }

  /** `process_apk_task` for a task created by one of the endpoints, with the
      `so_files` it was submitted with. */
  function ProcessApkTask(task: TaskInfo, soFiles: SoFiles, tools: Tools): RunState
  {
    match RunTry(Begin(task, tools), soFiles, tools)
    case Finished(s) => s
    case Raised(f, s) => RecordFailure(f, s, tools.clock.end)
  }
}

=== FILE: pipeline_properties.dfy ===
/** What a whole run of `process_apk_task` guarantees: the status machine,
    the index written only by a successful run and before COMPLETE, and the
    verify-then-commit structure of the component replacement. */
module PipelineProperties {
  import opened Wrappers
  import opened Architecture
  import opened Entries
  import opened ProcessingIndex
  import opened Tasks
  import opened Pipeline

  /** The status a step sets: none, or one. */
  function StatusOf(s: Step): seq<TaskStatus>
  {
    match s
    case Started => [Processing]
    case Completed => [Complete]
    case FailedWith(_) => [Failed]
    case _ => []
  }

  /** The statuses a trace sets, in order. */
  function StatusTrail(t: seq<Step>): seq<TaskStatus>
  {
    if |t| == 0 then [] else StatusOf(t[0]) + StatusTrail(t[1..])
  }

  lemma {:induction false} StatusTrailAppend(a: seq<Step>, b: seq<Step>)
    ensures StatusTrail(a + b) == StatusTrail(a) + StatusTrail(b)
    decreases |a|
  {
    if |a| == 0 {
      assert a + b == b;
    } else {
      var h := StatusOf(a[0]);
      assert (a + b)[0] == a[0];
      assert (a + b)[1..] == a[1..] + b;
      StatusTrailAppend(a[1..], b);
      assert h + (StatusTrail(a[1..]) + StatusTrail(b)) == (h + StatusTrail(a[1..])) + StatusTrail(b);
    }
  }

  lemma {:induction false} StatusTrailQuiet(t: seq<Step>)
    requires forall i :: 0 <= i < |t| ==> StatusOf(t[i]) == []
    ensures StatusTrail(t) == []
    decreases |t|
  {
    if |t| > 0 {
      StatusTrailQuiet(t[1..]);
    }
  }

  /** The steps of the packaging stage and of the index write. */
  predicate PackagingStep(s: Step)
  {
    s.Built? || s.Aligned? || s.Signed? || s.IndexSaved?
  }

  /** Rebuild, align and sign all succeed on the given `lib/<abi>`. */
  predicate PackagingSucceeds(tools: Tools, lib: map<string, Bytes>)
  {
    && tools.build(lib).Some?
    && tools.align(tools.build(lib).value).Some?
    && tools.sign(tools.align(tools.build(lib).value).value).Some?
  }

  /** The signed APK of a run whose packaging succeeds. */
  function SignedOutput(tools: Tools, lib: map<string, Bytes>): Bytes
    requires PackagingSucceeds(tools, lib)
  {
    tools.sign(tools.align(tools.build(lib).value).value).value
  }

  /** A packaging stage that raises has only appended packaging steps other
      than the index write, left the index and the status alone, and changed
      no task field except the output digest. */
  lemma RepackageRaised(s: RunState, tools: Tools)
    requires Repackage(s, tools).Raised?
    ensures var a := Repackage(s, tools);
      && |a.state.trace| >= |s.trace|
      && a.state.trace[..|s.trace|] == s.trace
      && (forall i :: |s.trace| <= i < |a.state.trace| ==> PackagingStep(a.state.trace[i]) && !a.state.trace[i].IndexSaved?)
      && a.state.lib == s.lib
      && a.state.index == s.index
      && a.state.task == s.task.(fileMd5After := a.state.task.fileMd5After)
      && !(PackagingSucceeds(tools, s.lib) && tools.saveError.None?)
  {
  }

  /** A packaging stage that finishes has rebuilt, aligned, signed, saved the
      index with the new entry, and then set COMPLETE. */
  lemma RepackageFinished(s: RunState, tools: Tools)
    requires Repackage(s, tools).Finished?
    ensures var a := Repackage(s, tools);
      && PackagingSucceeds(tools, s.lib) && tools.saveError.None?
      && var md5After := tools.md5(SignedOutput(tools, s.lib));
      && a.state.trace == s.trace + [Built, Aligned, Signed, IndexSaved, Completed]
      && a.state.lib == s.lib
      && a.state.index == Persist(AddTask(Migrate(tools.storedIndex), s.task.fileMd5Before,
                                          TaskEntry(s.task, md5After, tools.clock.indexed)))
      && a.state.task == s.task.(status := Complete, fileMd5After := Some(md5After),
                                 endTimestamp := Some(tools.clock.end),
                                 totalConsumeSeconds := Some(tools.clock.end - tools.clock.start))
  {
    var md5After := tools.md5(SignedOutput(tools, s.lib));
    RepackageSigned(s, tools);
    var s3 := s.(task := s.task.(fileMd5After := Some(md5After)), trace := s.trace + [Built, Aligned, Signed]);
    assert tools.saveError.None?;
    FinalizeFinished(s3, tools, md5After);
    assert s3.lib == s.lib && s3.task.fileMd5Before == s.task.fileMd5Before;
    assert TaskEntry(s3.task, md5After, tools.clock.indexed) == TaskEntry(s.task, md5After, tools.clock.indexed);
    assert s3.trace + [IndexSaved, Completed] == s.trace + [Built, Aligned, Signed, IndexSaved, Completed];
    assert s3.task.(status := Complete, endTimestamp := Some(tools.clock.end),
                    totalConsumeSeconds := Some(tools.clock.end - tools.clock.start))
        == s.task.(status := Complete, fileMd5After := Some(md5After), endTimestamp := Some(tools.clock.end),
                   totalConsumeSeconds := Some(tools.clock.end - tools.clock.start));
  }

  /** Once all three tools succeed, what is left is the index write. */
  lemma RepackageSigned(s: RunState, tools: Tools)
    requires Repackage(s, tools).Finished?
    ensures PackagingSucceeds(tools, s.lib)
    ensures var md5After := tools.md5(SignedOutput(tools, s.lib));
      Repackage(s, tools) == Finalize(s.(task := s.task.(fileMd5After := Some(md5After)),
                                          trace := s.trace + [Built, Aligned, Signed]), tools, md5After)
  {
    assert s.trace + [Built] + [Aligned] + [Signed] == s.trace + [Built, Aligned, Signed];
  }

  lemma FinalizeFinished(s: RunState, tools: Tools, md5After: string)
    requires tools.saveError.None?
    ensures var a := Finalize(s, tools, md5After);
      && a.Finished?
      && a.state.trace == s.trace + [IndexSaved, Completed]
      && a.state.lib == s.lib
      && a.state.index == Persist(AddTask(Migrate(tools.storedIndex), s.task.fileMd5Before,
                                          TaskEntry(s.task, md5After, tools.clock.indexed)))
      && a.state.task == s.task.(status := Complete, endTimestamp := Some(tools.clock.end),
                                 totalConsumeSeconds := Some(tools.clock.end - tools.clock.start))
  {
  }

  /** The state after a successful decode. */
  function Unpacked(task: TaskInfo, tools: Tools): RunState
  {
    AfterDecode(Begin(task, tools), tools)
  }

  lemma UnpackedTrace(task: TaskInfo, tools: Tools)
    ensures Unpacked(task, tools).trace == [Started, Decoded]
    ensures Unpacked(task, tools).lib == tools.unpackedLib
  {
    assert [Started] + [Decoded] == [Started, Decoded];
  }

  /** A run whose decode fails. */
  lemma RunDecodeFailed(task: TaskInfo, soFiles: SoFiles, tools: Tools)
    requires !tools.decodeOk
    ensures ProcessApkTask(task, soFiles, tools) == RecordFailure(DecodeFailed, Begin(task, tools), tools.clock.end)
  {
  }

  /** A run that decodes but is given no non-blank URL. */
  lemma RunNoValid(task: TaskInfo, soFiles: SoFiles, tools: Tools)
    requires tools.decodeOk && |ValidNames(soFiles)| == 0
    ensures ProcessApkTask(task, soFiles, tools) == RecordFailure(NoValidSoFiles, Unpacked(task, tools), tools.clock.end)
  {
  }

  /** A run in which a component fails verification. */
  lemma RunVerifyFailed(task: TaskInfo, soFiles: SoFiles, tools: Tools)
    requires tools.decodeOk && |ValidNames(soFiles)| > 0
    requires VerifyAll(soFiles, WorkPath(task), task.soArchitecture, tools).Err?
    ensures var a := VerifyAll(soFiles, WorkPath(task), task.soArchitecture, tools).error;
      ProcessApkTask(task, soFiles, tools)
        == RecordFailure(a.failure, Unpacked(task, tools).(trace := Unpacked(task, tools).trace + a.steps), tools.clock.end)
  {
  }

  /** A run in which every component verifies, before packaging. */
  lemma RunVerified(task: TaskInfo, soFiles: SoFiles, tools: Tools)
    requires tools.decodeOk && |ValidNames(soFiles)| > 0
    requires VerifyAll(soFiles, WorkPath(task), task.soArchitecture, tools).Ok?
    ensures var v := VerifyAll(soFiles, WorkPath(task), task.soArchitecture, tools).value;
      && (forall n :: n in ValidNames(soFiles) ==> n in v.downloads)
      && var c := Repackage(Committed(Unpacked(task, tools), soFiles, v), tools);
      ProcessApkTask(task, soFiles, tools)
        == (if c.Finished? then c.state else RecordFailure(c.failure, c.state, tools.clock.end))
  {
    VerifyAllOkKeys(soFiles, WorkPath(task), task.soArchitecture, tools);
  }

  /** No step of the trace sets a status or saves the index. */
  predicate Quiet(t: seq<Step>)
  {
    forall i :: 0 <= i < |t| ==> StatusOf(t[i]) == [] && !t[i].IndexSaved?
  }

  /** The trace never saves the index. */
  predicate NeverSaved(t: seq<Step>)
  {
    forall i :: 0 <= i < |t| ==> !t[i].IndexSaved?
  }

  /** A run in progress for `task`: PROCESSING with the start stamp, the
      request fields untouched, and PROCESSING the only status set so far. */
  predicate Running(s: RunState, task: TaskInfo, tools: Tools)
  {
    && s.task.status == Processing && SameRequest(s.task, task)
    && s.task.startTimestamp == Some(tools.clock.start)
    && s.task.endTimestamp.None? && s.task.totalConsumeSeconds.None? && s.task.reason.None?
    && |s.trace| >= 1 && s.trace[0] == Started
    && StatusTrail(s.trace) == [Processing]
    && NeverSaved(s.trace) && s.index == tools.storedIndex
  }

  lemma QuietExtends(s: RunState, t: seq<Step>, task: TaskInfo, tools: Tools)
    requires Running(s, task, tools) && Quiet(t)
    ensures Running(s.(trace := s.trace + t), task, tools)
  {
    StatusTrailAppend(s.trace, t);
    StatusTrailQuiet(t);
  }

  lemma BeginRunning(task: TaskInfo, tools: Tools)
    requires task.status == Pending && Consistent(task)
    ensures Running(Begin(task, tools), task, tools)
    ensures Running(Unpacked(task, tools), task, tools)
  {
    UnpackedTrace(task, tools);
    assert StatusTrail([Started, Decoded]) == [Processing];
  }

  /** Download, verify and copy steps set no status and save nothing. */
  lemma FetchAndCopyQuiet(steps: seq<Step>, names: seq<string>)
    requires forall i :: 0 <= i < |steps| ==> FetchStep(steps[i])
    ensures Quiet(steps + CopySteps(names))
  {
    var t := steps + CopySteps(names);
    forall i | 0 <= i < |t|
      ensures StatusOf(t[i]) == [] && !t[i].IndexSaved?
    {
      if i < |steps| {
        assert t[i] == steps[i];
      } else {
        assert t[i] == Copied(names[i - |steps|]);
      }
    }
  }

  /** The state the copy loop leaves is still running, with the replacement
      record filled in. */
  lemma CommittedRunning(task: TaskInfo, soFiles: SoFiles, tools: Tools)
    requires task.status == Pending && Consistent(task)
    requires tools.decodeOk && VerifyAll(soFiles, WorkPath(task), task.soArchitecture, tools).Ok?
    ensures var v := VerifyAll(soFiles, WorkPath(task), task.soArchitecture, tools).value;
      && (forall n :: n in ValidNames(soFiles) ==> n in v.downloads)
      && var c := Committed(Unpacked(task, tools), soFiles, v);
      && Running(c, task, tools)
      && c.task.realSoArchitecture == Some(task.soArchitecture)
      && c.task.soMd5Before.Some? && c.task.soMd5After.Some?
      && c.task.soMd5Before.value.Keys == c.task.soMd5After.value.Keys
  {
    var work, arch := WorkPath(task), task.soArchitecture;
    var v := VerifyAll(soFiles, work, arch, tools).value;
    VerifyAllOkKeys(soFiles, work, arch, tools);
    VerifyAllOkSteps(soFiles, work, arch, tools);
    BeginRunning(task, tools);
    var u := Unpacked(task, tools);
    var t := v.steps + CopySteps(ValidNames(soFiles));
    FetchAndCopyQuiet(v.steps, ValidNames(soFiles));
    QuietExtends(u, t, task, tools);
    var c := Committed(u, soFiles, v);
    assert c.trace == u.trace + t;
    assert c == u.(trace := u.trace + t).(task := c.task, lib := c.lib);
  }

  /** A failure recorded on a running state: FAILED with the exception's
      text, the end stamp, a duration exactly when the start stamp is
      non-zero, and FAILED as the last status set. */
  lemma RecordFailureOnRunning(f: Failure, s: RunState, task: TaskInfo, tools: Tools)
    requires Running(s, task, tools)
    ensures var r := RecordFailure(f, s, tools.clock.end);
      && r.task.status == Failed && Consistent(r.task) && SameRequest(r.task, task)
      && r.task.reason == Some(Message(f))
      && r.task.startTimestamp == Some(tools.clock.start)
      && r.task.endTimestamp == Some(tools.clock.end)
      && (r.task.totalConsumeSeconds.Some? <==> tools.clock.start != 0)
      && r.trace == s.trace + [FailedWith(f)]
      && StatusTrail(r.trace) == [Processing, Failed]
      && NeverSaved(r.trace)
      && r.lib == s.lib && r.index == s.index
  {
    StatusTrailAppend(s.trace, [FailedWith(f)]);
  }

  /** The last step of a non-empty trace. */
  function Last(t: seq<Step>): Step
    requires |t| > 0
  {
    t[|t| - 1]
  }

  /** The statuses of a finished run: PROCESSING, then COMPLETE or FAILED
      as the last step, and nothing else. */
  predicate EndedTrail(r: RunState)
  {
    && Terminal(r.task.status) && StatusStep(Processing, r.task.status)
    && |r.trace| >= 2 && r.trace[0] == Started
    && StatusTrail(r.trace) == [Processing, r.task.status]
    && (r.task.status == Complete <==> Last(r.trace) == Completed)
    && (r.task.status == Failed <==> Last(r.trace).FailedWith?)
  }

  /** The task record of a finished run: the request fields untouched, both
      stamps set, every field its final status requires filled in, a
      failure's reason the text of the exception that ended the run, and a
      failure's duration present exactly when the start stamp is non-zero. */
  predicate EndedRecord(task: TaskInfo, tools: Tools, r: RunState)
  {
    && Consistent(r.task) && SameRequest(r.task, task)
    && r.task.startTimestamp == Some(tools.clock.start)
    && r.task.endTimestamp == Some(tools.clock.end)
    && (r.task.status == Failed && |r.trace| > 0 && Last(r.trace).FailedWith? ==>
          && r.task.reason == Some(Message(Last(r.trace).failure))
          && (r.task.totalConsumeSeconds.Some? <==> tools.clock.start != 0))
  }

  /** The index of a finished run: a completed run saved it just before
      COMPLETE with its entry added under the original digest; a failed run
      never saved it. */
  predicate EndedIndex(task: TaskInfo, tools: Tools, r: RunState)
  {
    && (r.task.status == Complete ==>
          && tools.saveError.None? && |r.trace| >= 2 && r.trace[|r.trace| - 2] == IndexSaved
          && r.task.fileMd5After.Some?
          && r.index == Persist(AddTask(Migrate(tools.storedIndex), task.fileMd5Before,
                                        TaskEntry(task, r.task.fileMd5After.value, tools.clock.indexed))))
    && (r.task.status == Failed ==> r.index == tools.storedIndex && NeverSaved(r.trace))
  }

  /** How a run for `task` ends. */
  predicate Ended(task: TaskInfo, tools: Tools, r: RunState)
  {
    EndedTrail(r) && EndedRecord(task, tools, r) && EndedIndex(task, tools, r)
  }

  lemma FailureEnds(f: Failure, s: RunState, task: TaskInfo, tools: Tools)
    requires Running(s, task, tools)
    ensures Ended(task, tools, RecordFailure(f, s, tools.clock.end))
  {
    RecordFailureOnRunning(f, s, task, tools);
  }

  lemma VerifyFailureEnds(task: TaskInfo, soFiles: SoFiles, tools: Tools)
    requires task.status == Pending && Consistent(task)
    requires tools.decodeOk && |ValidNames(soFiles)| > 0
    requires VerifyAll(soFiles, WorkPath(task), task.soArchitecture, tools).Err?
    ensures Ended(task, tools, ProcessApkTask(task, soFiles, tools))
  {
    var work, arch := WorkPath(task), task.soArchitecture;
    var a := VerifyAll(soFiles, work, arch, tools).error;
    RunVerifyFailed(task, soFiles, tools);
    VerifyAllErr(soFiles, work, arch, tools);
    BeginRunning(task, tools);
    var u := Unpacked(task, tools);
    assert Quiet(a.steps) by {
      assert forall i :: 0 <= i < |a.steps| ==> FetchStep(a.steps[i]);
    }
    QuietExtends(u, a.steps, task, tools);
    FailureEnds(a.failure, u.(trace := u.trace + a.steps), task, tools);
  }

  lemma PackagingFailureEnds(c: RunState, task: TaskInfo, tools: Tools)
    requires Running(c, task, tools) && Repackage(c, tools).Raised?
    ensures var a := Repackage(c, tools);
      Ended(task, tools, RecordFailure(a.failure, a.state, tools.clock.end))
  {
    RepackageRaised(c, tools);
    var a := Repackage(c, tools);
    var tail := a.state.trace[|c.trace|..];
    assert a.state.trace == c.trace + tail;
    assert Quiet(tail) by {
      forall i | 0 <= i < |tail| ensures StatusOf(tail[i]) == [] && !tail[i].IndexSaved? {
        assert PackagingStep(a.state.trace[|c.trace| + i]);
      }
    }
    QuietExtends(c, tail, task, tools);
    FailureEnds(a.failure, a.state, task, tools);
  }

  lemma PackagingSuccessTrail(c: RunState, task: TaskInfo, tools: Tools)
    requires Running(c, task, tools) && Repackage(c, tools).Finished?
    ensures EndedTrail(Repackage(c, tools).state)
  {
    RepackageFinished(c, tools);
    CompletedTrail(c.trace);
  }

  /** The packaging steps of a finished run add COMPLETE, and only it, to
      the statuses of a running task's trace. */
  lemma CompletedTrail(t: seq<Step>)
    requires |t| >= 1 && t[0] == Started && StatusTrail(t) == [Processing]
    ensures var u := t + [Built, Aligned, Signed, IndexSaved, Completed];
      && |u| >= 2 && u[0] == Started && Last(u) == Completed && !Last(u).FailedWith?
      && StatusTrail(u) == [Processing, Complete]
  {
    var post := [Built, Aligned, Signed, IndexSaved, Completed];
    StatusTrailAppend(t, post);
    assert StatusTrail(post) == [Complete];
  }

  lemma PackagingSuccessRecord(c: RunState, task: TaskInfo, tools: Tools)
    requires Running(c, task, tools) && Repackage(c, tools).Finished?
    requires c.task.realSoArchitecture == Some(task.soArchitecture)
    requires c.task.soMd5Before.Some? && c.task.soMd5After.Some?
    requires c.task.soMd5Before.value.Keys == c.task.soMd5After.value.Keys
    ensures EndedRecord(task, tools, Repackage(c, tools).state)
  {
    RepackageFinished(c, tools);
  }

  lemma PackagingSuccessIndex(c: RunState, task: TaskInfo, tools: Tools)
    requires Running(c, task, tools) && Repackage(c, tools).Finished?
    ensures EndedIndex(task, tools, Repackage(c, tools).state)
  {
    RepackageFinished(c, tools);
    var md5After := tools.md5(SignedOutput(tools, c.lib));
    assert TaskEntry(c.task, md5After, tools.clock.indexed) == TaskEntry(task, md5After, tools.clock.indexed);
  }

  lemma PackagingSuccessEnds(c: RunState, task: TaskInfo, tools: Tools)
    requires Running(c, task, tools) && Repackage(c, tools).Finished?
    requires c.task.realSoArchitecture == Some(task.soArchitecture)
    requires c.task.soMd5Before.Some? && c.task.soMd5After.Some?
    requires c.task.soMd5Before.value.Keys == c.task.soMd5After.value.Keys
    ensures Ended(task, tools, Repackage(c, tools).state)
  {
    PackagingSuccessTrail(c, task, tools);
    PackagingSuccessRecord(c, task, tools);
    PackagingSuccessIndex(c, task, tools);
  }

  lemma VerifiedRunEnds(task: TaskInfo, soFiles: SoFiles, tools: Tools)
    requires task.status == Pending && Consistent(task)
    requires tools.decodeOk && |ValidNames(soFiles)| > 0
    requires VerifyAll(soFiles, WorkPath(task), task.soArchitecture, tools).Ok?
    ensures Ended(task, tools, ProcessApkTask(task, soFiles, tools))
  {
    var v := VerifyAll(soFiles, WorkPath(task), task.soArchitecture, tools).value;
    RunVerified(task, soFiles, tools);
    CommittedRunning(task, soFiles, tools);
    var c := Committed(Unpacked(task, tools), soFiles, v);
    if Repackage(c, tools).Raised? {
      PackagingFailureEnds(c, task, tools);
    } else {
      PackagingSuccessEnds(c, task, tools);
    }
  }

  /** A task created PENDING moves to PROCESSING and ends as `Ended`
      describes, whatever the tools answer. */
  lemma ProcessApkTaskLifecycle(task: TaskInfo, soFiles: SoFiles, tools: Tools)
    requires task.status == Pending && Consistent(task)
    ensures StatusStep(task.status, Processing)
    ensures Ended(task, tools, ProcessApkTask(task, soFiles, tools))
  {
    BeginRunning(task, tools);
    if !tools.decodeOk {
      RunDecodeFailed(task, soFiles, tools);
      FailureEnds(DecodeFailed, Begin(task, tools), task, tools);
    } else if |ValidNames(soFiles)| == 0 {
      RunNoValid(task, soFiles, tools);
      FailureEnds(NoValidSoFiles, Unpacked(task, tools), task, tools);
    } else if VerifyAll(soFiles, WorkPath(task), task.soArchitecture, tools).Err? {
      VerifyFailureEnds(task, soFiles, tools);
    } else {
      VerifiedRunEnds(task, soFiles, tools);
    }
  }

  /** A step that sets no status sits anywhere in a trace whose trail is
      empty. */
  lemma {:induction false} StatusTrailEmpty(t: seq<Step>, i: int)
    requires StatusTrail(t) == [] && 0 <= i < |t|
    ensures StatusOf(t[i]) == []
    decreases |t|
  {
    if i > 0 {
      StatusTrailEmpty(t[1..], i - 1);
    }
  }

  /** A trail of two statuses, set by the first and the last step, leaves
      every step in between silent. */
  lemma QuietBetween(t: seq<Step>, i: int)
    requires |t| >= 2 && |StatusTrail(t)| == 2
    requires StatusOf(t[0]) != [] && StatusOf(t[|t| - 1]) != []
    requires 0 < i < |t| - 1
    ensures StatusOf(t[i]) == []
  {
    var mid := t[1..|t| - 1];
    assert t == [t[0]] + mid + [t[|t| - 1]];
    StatusTrailAppend([t[0]] + mid, [t[|t| - 1]]);
    StatusTrailAppend([t[0]], mid);
    assert StatusTrail([t[0]]) == StatusOf(t[0]) + StatusTrail([]);
    assert StatusTrail([t[|t| - 1]]) == StatusOf(t[|t| - 1]) + StatusTrail([]);
    assert mid[i - 1] == t[i];
    StatusTrailEmpty(mid, i - 1);
  }

  /** In every run of a fresh task, `Started` is the first step and the
      step that sets COMPLETE or FAILED is the last: nothing happens to the
      task after it ends, and only one such step occurs. */
  lemma ProcessApkTaskEndsOnce(task: TaskInfo, soFiles: SoFiles, tools: Tools)
    requires task.status == Pending && Consistent(task)
    ensures var t := ProcessApkTask(task, soFiles, tools).trace;
      && |t| >= 2 && t[0] == Started && (t[|t| - 1].Completed? || t[|t| - 1].FailedWith?)
      && forall i :: 0 < i < |t| - 1 ==> !t[i].Started? && !t[i].Completed? && !t[i].FailedWith?
  {
    ProcessApkTaskLifecycle(task, soFiles, tools);
    EndedTrailOnce(ProcessApkTask(task, soFiles, tools));
  }

  lemma EndedTrailOnce(r: RunState)
    requires EndedTrail(r)
    ensures var t := r.trace;
      && |t| >= 2 && t[0] == Started && (t[|t| - 1].Completed? || t[|t| - 1].FailedWith?)
      && forall i :: 0 < i < |t| - 1 ==> !t[i].Started? && !t[i].Completed? && !t[i].FailedWith?
  {
    var t := r.trace;
    forall i | 0 < i < |t| - 1
      ensures !t[i].Started? && !t[i].Completed? && !t[i].FailedWith?
    {
      QuietBetween(t, i);
    }
  }

  /** The index is written only by a run that completes, exactly once and
      right before COMPLETE, with the new entry under the original APK's
      digest added to the migrated stored index; a failed run leaves the
      stored index as it was and never writes it. */
  lemma ProcessApkTaskIndexWrite(task: TaskInfo, soFiles: SoFiles, tools: Tools)
    requires task.status == Pending && Consistent(task)
    ensures var r := ProcessApkTask(task, soFiles, tools);
      && (r.task.status == Complete ==>
            && tools.saveError.None?
            && |r.trace| >= 2 && r.trace[|r.trace| - 2] == IndexSaved && r.trace[|r.trace| - 1] == Completed
            && r.task.fileMd5After.Some?
            && r.index == Persist(AddTask(Migrate(tools.storedIndex), task.fileMd5Before,
                                          TaskEntry(task, r.task.fileMd5After.value, tools.clock.indexed))))
      && (r.task.status == Failed ==>
            && r.index == tools.storedIndex
            && forall i :: 0 <= i < |r.trace| ==> !r.trace[i].IndexSaved?)
  {
    ProcessApkTaskLifecycle(task, soFiles, tools);
    EndedIndexWrite(task, tools, ProcessApkTask(task, soFiles, tools));
  }

  lemma EndedIndexWrite(task: TaskInfo, tools: Tools, r: RunState)
    requires Ended(task, tools, r)
    ensures && (r.task.status == Complete ==>
                  && tools.saveError.None?
                  && |r.trace| >= 2 && r.trace[|r.trace| - 2] == IndexSaved && r.trace[|r.trace| - 1] == Completed
                  && r.task.fileMd5After.Some?
                  && r.index == Persist(AddTask(Migrate(tools.storedIndex), task.fileMd5Before,
                                                TaskEntry(task, r.task.fileMd5After.value, tools.clock.indexed))))
            && (r.task.status == Failed ==>
                  && r.index == tools.storedIndex
                  && forall i :: 0 <= i < |r.trace| ==> !r.trace[i].IndexSaved?)
  {
  }

  /** After a completed run the new entry is the cached result for the
      original digest, with or without the architecture filter, provided it
      is newer than every entry already stored under that digest. */
  lemma CompletedRunIsCached(task: TaskInfo, soFiles: SoFiles, tools: Tools)
    requires task.status == Pending && Consistent(task)
    requires forall x :: x in EntriesFor(Migrate(tools.storedIndex), task.fileMd5Before) ==> TimeKey(x) < tools.clock.indexed
    ensures var r := ProcessApkTask(task, soFiles, tools);
      r.task.status == Complete ==>
        && r.task.fileMd5After.Some?
        && var e := TaskEntry(task, r.task.fileMd5After.value, tools.clock.indexed);
        && GetLatestCachedTask(Migrate(r.index), task.fileMd5Before, None) == Some(e)
        && GetLatestCachedTask(Migrate(r.index), task.fileMd5Before, Some(ArchName(task.soArchitecture))) == Some(e)
  {
    ProcessApkTaskLifecycle(task, soFiles, tools);
    EndedIsCached(task, tools, ProcessApkTask(task, soFiles, tools));
  }

  /** The index a completed run leaves names its own entry as the latest
      for the original digest when that entry is the newest one. */
  lemma EndedIsCached(task: TaskInfo, tools: Tools, r: RunState)
    requires EndedIndex(task, tools, r)
    requires forall x :: x in EntriesFor(Migrate(tools.storedIndex), task.fileMd5Before) ==> TimeKey(x) < tools.clock.indexed
    ensures r.task.status == Complete ==>
        && r.task.fileMd5After.Some?
        && var e := TaskEntry(task, r.task.fileMd5After.value, tools.clock.indexed);
        && GetLatestCachedTask(Migrate(r.index), task.fileMd5Before, None) == Some(e)
        && GetLatestCachedTask(Migrate(r.index), task.fileMd5Before, Some(ArchName(task.soArchitecture))) == Some(e)
  {
    if r.task.status == Complete {
      var e := TaskEntry(task, r.task.fileMd5After.value, tools.clock.indexed);
      var idx := Migrate(tools.storedIndex);
      MigratePersist(AddTask(idx, task.fileMd5Before, e));
      AddTaskThenLatest(idx, task.fileMd5Before, e, None);
      AddTaskThenLatest(idx, task.fileMd5Before, e, Some(ArchName(task.soArchitecture)));
    }
  }

  /** A run stops before any download when the decode fails, and right after
      the decode when no URL is non-blank. */
  lemma ProcessApkTaskStopsEarly(task: TaskInfo, soFiles: SoFiles, tools: Tools)
    ensures var r := ProcessApkTask(task, soFiles, tools);
      !tools.decodeOk ==>
        && r.trace == [Started, FailedWith(DecodeFailed)]
        && r.task.status == Failed && r.task.reason == Some("Failed to decode APK")
        && r.lib == map[] && r.index == tools.storedIndex
    ensures var r := ProcessApkTask(task, soFiles, tools);
      tools.decodeOk && |ValidNames(soFiles)| == 0 ==>
        && r.trace == [Started, Decoded, FailedWith(NoValidSoFiles)]
        && r.task.status == Failed
        && r.task.reason == Some("No valid SO files to process. All URLs are empty.")
        && r.lib == tools.unpackedLib && r.index == tools.storedIndex
  {
    if !tools.decodeOk {
      RunDecodeFailed(task, soFiles, tools);
    } else if |ValidNames(soFiles)| == 0 {
      RunNoValid(task, soFiles, tools);
    }
  }

  /** When some non-blank component fails its check, the run fails with the
      failure of the first such component, and the reason is its text. */
  lemma ProcessApkTaskFirstFailure(task: TaskInfo, soFiles: SoFiles, tools: Tools)
    requires tools.decodeOk && !AllPass(soFiles, WorkPath(task), task.soArchitecture, tools)
    ensures var r := ProcessApkTask(task, soFiles, tools);
      && r.task.status == Failed
      && exists i :: && 0 <= i < |soFiles| && IsValid(soFiles[i])
                     && var check := CheckComponent(soFiles[i].0, soFiles[i].1, WorkPath(task), task.soArchitecture, tools);
                     && check.Err?
                     && (forall j :: 0 <= j < i && IsValid(soFiles[j]) ==> Passes(soFiles[j], WorkPath(task), task.soArchitecture, tools))
                     && r.task.reason == Some(Message(check.error))
                     && Last(r.trace) == FailedWith(check.error)
  {
    var work, arch := WorkPath(task), task.soArchitecture;
    VerifyAllOkIff(soFiles, work, arch, tools);
    var i :| 0 <= i < |soFiles| && IsValid(soFiles[i]) && !Passes(soFiles[i], work, arch, tools);
    ValidNamesMembers(soFiles);
    assert soFiles[i].0 in ValidNames(soFiles);
    RunVerifyFailed(task, soFiles, tools);
    VerifyAllErr(soFiles, work, arch, tools);
  }

}

=== FILE: processing_index.dfy ===
/** The MD5-keyed processing index: for each original APK digest, the list of
    entries of the tasks that processed it. */
module ProcessingIndex {
  import opened Wrappers
  import opened Entries

  /** The index as the server holds it after loading: digest to entry list. */
  type Index = map<string, seq<Entry>>

  /** Most entries kept per digest. */
  const MaxTasksPerMd5: nat := 10

  /** A value of `index.json` as parsed: an old single-entry object, a list of
      entries, or any other JSON value. */
  datatype RawValue = RawRecord(entry: Entry) | RawList(entries: seq<Entry>) | RawOther

  type RawIndex = map<string, RawValue>

  /** The migration loop of `load_index`: an object becomes a one-entry
      list, a list is kept, anything else is dropped. */
  function Migrate(raw: RawIndex): (idx: Index)
    ensures idx.Keys <= raw.Keys
    ensures forall k :: k in raw ==> (k in idx <==> !raw[k].RawOther?)
    ensures forall k :: k in raw && raw[k].RawRecord? ==> idx[k] == [raw[k].entry]
    ensures forall k :: k in raw && raw[k].RawList? ==> idx[k] == raw[k].entries
  {
    map k | k in raw && !raw[k].RawOther? ::
      match raw[k]
      case RawRecord(e) => [e]
      case RawList(es) => es
  }

  /** What `save_index` writes: every value is a list. */
  function Persist(idx: Index): (raw: RawIndex)
    ensures raw.Keys == idx.Keys
    ensures forall k :: k in raw ==> raw[k].RawList?
  {
    map k | k in idx :: RawList(idx[k])
  }

  /** Loading what was saved gives back the index. */
  lemma MigratePersist(idx: Index)
    ensures Migrate(Persist(idx)) == idx
  {
  }

  /** Loading an index that was already migrated and saved changes nothing. */
  lemma MigrateIdempotent(raw: RawIndex)
    ensures Migrate(Persist(Migrate(raw))) == Migrate(raw)
  {
    MigratePersist(Migrate(raw));
  }

  /** The entries stored for `md5`, or the empty list `add_task_to_index`
      starts from when the digest is new. */
  function EntriesFor(idx: Index, md5: string): seq<Entry>
  {
    if md5 in idx then idx[md5] else []
  }

  /** The retention step: over ten entries, sort newest first and keep ten. */
  function Retain(s: seq<Entry>): (r: seq<Entry>)
    ensures |s| <= MaxTasksPerMd5 ==> r == s
    ensures |s| > MaxTasksPerMd5 ==> |r| == MaxTasksPerMd5
    ensures multiset(r) <= multiset(s)
  {
    if |s| > MaxTasksPerMd5 then
      var sorted := SortByTimeDesc(s);
      assert sorted == sorted[..MaxTasksPerMd5] + sorted[MaxTasksPerMd5..];
      sorted[..MaxTasksPerMd5]
    else s
  }

  /** `add_task_to_index`: append the entry under `md5`, then apply the
      retention step to that list only. */
  function AddTask(idx: Index, md5: string, e: Entry): (r: Index)
    ensures r.Keys == idx.Keys + {md5}
    ensures forall k :: k in idx && k != md5 ==> r[k] == idx[k]
    ensures |r[md5]| <= MaxTasksPerMd5
    ensures |EntriesFor(idx, md5)| < MaxTasksPerMd5 ==> r[md5] == EntriesFor(idx, md5) + [e]
    ensures multiset(r[md5]) <= multiset(EntriesFor(idx, md5)) + multiset{e}
  {
    idx[md5 := Retain(EntriesFor(idx, md5) + [e])]
  }

  /** When the list grows past ten: exactly ten entries remain, newest
      first; within each timestamp the entries kept are the earliest ones of
      that timestamp, in their prior order; and an entry with timestamp `k`
      is dropped only if every kept entry is at least as new as `k`. */
  lemma AddTaskRetention(idx: Index, md5: string, e: Entry)
    requires |EntriesFor(idx, md5)| >= MaxTasksPerMd5
    ensures var s := EntriesFor(idx, md5) + [e];
      var r := AddTask(idx, md5, e)[md5];
      && |r| == MaxTasksPerMd5
      && SortedDesc(r)
      && (forall k :: KeyFilter(r, k) <= KeyFilter(s, k))
      && (forall k :: |KeyFilter(r, k)| < |KeyFilter(s, k)| ==>
            forall i :: 0 <= i < |r| ==> TimeKey(r[i]) >= k)
  {
    var s := EntriesFor(idx, md5) + [e];
    assert AddTask(idx, md5, e)[md5] == Retain(s);
    forall k
      ensures KeyFilter(Retain(s), k) <= KeyFilter(s, k)
      ensures |KeyFilter(Retain(s), k)| < |KeyFilter(s, k)| ==> forall i :: 0 <= i < |Retain(s)| ==> TimeKey(Retain(s)[i]) >= k
    {
      RetainKeepsEarliest(s, k);
      RetainDropsOnlyOlder(s, k);
    }
  }

  /** Over ten entries, those kept with timestamp `k` are the earliest
      entries of that timestamp, in their prior order. */
  lemma RetainKeepsEarliest(s: seq<Entry>, k: nat)
    requires |s| > MaxTasksPerMd5
    ensures KeyFilter(Retain(s), k) <= KeyFilter(s, k)
  {
    var sorted := SortByTimeDesc(s);
    var r := sorted[..MaxTasksPerMd5];
    assert sorted == r + sorted[MaxTasksPerMd5..];
    KeyFilterAppend(r, sorted[MaxTasksPerMd5..], k);
  }

  /** Over ten entries, one with timestamp `k` is dropped only when every
      kept entry is at least as new as `k`. */
  lemma RetainDropsOnlyOlder(s: seq<Entry>, k: nat)
    requires |s| > MaxTasksPerMd5
    ensures var r := Retain(s);
      |KeyFilter(r, k)| < |KeyFilter(s, k)| ==> forall i :: 0 <= i < |r| ==> TimeKey(r[i]) >= k
  {
    var sorted := SortByTimeDesc(s);
    var r := sorted[..MaxTasksPerMd5];
    var dropped := sorted[MaxTasksPerMd5..];
    assert sorted == r + dropped;
    KeyFilterAppend(r, dropped, k);
    if |KeyFilter(r, k)| < |KeyFilter(s, k)| {
      KeyFilterWitness(dropped, k);
      var j :| 0 <= j < |dropped| && TimeKey(dropped[j]) == k;
      assert sorted[MaxTasksPerMd5 + j] == dropped[j];
      forall i | 0 <= i < |r|
        ensures TimeKey(r[i]) >= k
      {
        assert r[i] == sorted[i];
      }
    }
  }

  /** `if so_architecture:` — an absent or empty architecture means no filter. */
  predicate Filtering(arch: Option<string>)
  {
    arch.Some? && arch.value != ""
  }

  /** The entry passes the optional architecture filter. */
  predicate Selected(e: Entry, arch: Option<string>)
  {
    !Filtering(arch) || e.soArchitecture == arch
  }

  /** `[t for t in tasks if t.get("so_architecture") == so_architecture]`. */
  function Candidates(s: seq<Entry>, arch: Option<string>): (r: seq<Entry>)
    ensures forall x :: x in r <==> x in s && Selected(x, arch)
    ensures !Filtering(arch) ==> r == s
  {
    if |s| == 0 then []
    else
      assert forall x :: x in s <==> x == s[0] || x in s[1..];
      (if Selected(s[0], arch) then [s[0]] else []) + Candidates(s[1..], arch)
  }

  /** The filter keeps order and repetition: it works piece by piece. */
  lemma {:induction false} CandidatesAppend(a: seq<Entry>, b: seq<Entry>, arch: Option<string>)
    ensures Candidates(a + b, arch) == Candidates(a, arch) + Candidates(b, arch)
    decreases |a|
  {
    if |a| == 0 {
      assert a + b == b;
    } else {
      assert (a + b)[0] == a[0];
      assert (a + b)[1..] == a[1..] + b;
      CandidatesAppend(a[1..], b, arch);
    }
  }

  /** A single entry survives the filter exactly when it is selected. */
  lemma CandidatesSingle(e: Entry, arch: Option<string>)
    ensures Candidates([e], arch) == if Selected(e, arch) then [e] else []
  {
    assert [e][1..] == [];
  }

  /** The `p`-th candidate sits at some position `q` of the list, and the
      candidates before it are exactly those of the entries before `q`. */
  lemma {:induction false} CandidatePosition(s: seq<Entry>, arch: Option<string>, p: int)
    requires 0 <= p < |Candidates(s, arch)|
    ensures exists q :: 0 <= q < |s| && s[q] == Candidates(s, arch)[p] && Candidates(s[..q], arch) == Candidates(s, arch)[..p]
    decreases |s|
  {
    var f, g := Candidates(s, arch), Candidates(s[1..], arch);
    var h := if Selected(s[0], arch) then [s[0]] else [];
    assert f == h + g;
    if |h| == 1 && p == 0 {
      assert s[..0] == [];
    } else {
      var p' := p - |h|;
      assert g[p'] == f[p];
      CandidatePosition(s[1..], arch, p');
      var q' :| 0 <= q' < |s[1..]| && s[1..][q'] == g[p'] && Candidates(s[1..][..q'], arch) == g[..p'];
      PrefixAfterHead(s, arch, q');
      SliceAfterHead(h, g, p);
      assert s[q' + 1] == f[p];
    }
  }

  /** The candidates of a prefix of `s` longer than one: the head's, then
      those of the matching prefix of the tail. */
  lemma PrefixAfterHead(s: seq<Entry>, arch: Option<string>, q: int)
    requires 0 <= q < |s| - 1
    ensures Candidates(s[..q + 1], arch) == (if Selected(s[0], arch) then [s[0]] else []) + Candidates(s[1..][..q], arch)
  {
    assert s[..q + 1] == [s[0]] + s[1..][..q];
    CandidatesAppend([s[0]], s[1..][..q], arch);
    CandidatesSingle(s[0], arch);
  }

  lemma SliceAfterHead(h: seq<Entry>, g: seq<Entry>, p: int)
    requires |h| <= p <= |h| + |g|
    ensures (h + g)[..p] == h + g[..p - |h|]
  {
  }

  /** An entry before position `q` that passes the filter is one of the
      candidates before the `p`-th. */
  lemma EarlierCandidate(s: seq<Entry>, arch: Option<string>, p: int, q: int, j: int)
    requires 0 <= p < |Candidates(s, arch)| && 0 <= q < |s|
    requires Candidates(s[..q], arch) == Candidates(s, arch)[..p]
    requires 0 <= j < q && Selected(s[j], arch)
    ensures exists k :: 0 <= k < p && Candidates(s, arch)[k] == s[j]
  {
    assert s[j] in s[..q];
    assert s[j] in Candidates(s[..q], arch);
  }

  /** The first latest candidate is, in the list itself, preceded by no
      selected entry as new as it. */
  lemma FirstLatestInList(s: seq<Entry>, arch: Option<string>, p: int)
    requires 0 <= p < |Candidates(s, arch)|
    requires var f := Candidates(s, arch); forall j :: 0 <= j < p ==> TimeKey(f[j]) < TimeKey(f[p])
    ensures exists q :: && 0 <= q < |s| && s[q] == Candidates(s, arch)[p]
                        && forall j :: 0 <= j < q && Selected(s[j], arch) ==> TimeKey(s[j]) < TimeKey(s[q])
  {
    var f := Candidates(s, arch);
    CandidatePosition(s, arch, p);
    var q :| 0 <= q < |s| && s[q] == f[p] && Candidates(s[..q], arch) == f[..p];
    forall j | 0 <= j < q && Selected(s[j], arch)
      ensures TimeKey(s[j]) < TimeKey(s[q])
    {
      EarlierCandidate(s, arch, p, q, j);
    }
  }

  /** `get_latest_cached_task`: the most recent entry for `md5` that passes
      the architecture filter. */
  function GetLatestCachedTask(idx: Index, md5: string, arch: Option<string>): (r: Option<Entry>)
    ensures r.None? <==> md5 !in idx || forall x :: x in idx[md5] ==> !Selected(x, arch)
    ensures r.Some? ==>
      && md5 in idx
      && r.value in idx[md5]
      && Selected(r.value, arch)
      && (forall x :: x in idx[md5] && Selected(x, arch) ==> TimeKey(x) <= TimeKey(r.value))
    ensures r.Some? ==> var f := Candidates(idx[md5], arch);
      exists p :: 0 <= p < |f| && f[p] == r.value && forall j :: 0 <= j < p ==> TimeKey(f[j]) < TimeKey(r.value)
    ensures r.Some? ==>
      exists q :: && 0 <= q < |idx[md5]| && idx[md5][q] == r.value
                  && forall j :: 0 <= j < q && Selected(idx[md5][j], arch) ==> TimeKey(idx[md5][j]) < TimeKey(r.value)
  {
    if md5 !in idx then None
    else
      var ts := idx[md5];
      if |ts| == 0 then None
      else if Filtering(arch) then
        var f := Candidates(ts, arch);
        if |f| > 0 then
          LatestCandidate(ts, arch);
          Some(f[LatestPosition(f)])
        else
          None
      else
        LatestCandidate(ts, arch);
        Some(ts[LatestPosition(ts)])
  }

  /** What the lookup promises, for the first latest of the candidates. */
  lemma LatestCandidate(ts: seq<Entry>, arch: Option<string>)
    requires |Candidates(ts, arch)| > 0
    ensures var f := Candidates(ts, arch); var e := f[LatestPosition(f)];
      && e in ts && Selected(e, arch)
      && (forall x :: x in ts && Selected(x, arch) ==> TimeKey(x) <= TimeKey(e))
      && (exists p :: 0 <= p < |f| && f[p] == e && forall j :: 0 <= j < p ==> TimeKey(f[j]) < TimeKey(e))
      && (exists q :: && 0 <= q < |ts| && ts[q] == e
                      && forall j :: 0 <= j < q && Selected(ts[j], arch) ==> TimeKey(ts[j]) < TimeKey(e))
  {
    var f := Candidates(ts, arch);
    var p := LatestPosition(f);
    assert f[p] in f;
    forall x | x in ts && Selected(x, arch)
      ensures TimeKey(x) <= TimeKey(f[p])
    {
      assert x in f;
      var k :| 0 <= k < |f| && f[k] == x;
    }
    FirstLatestInList(ts, arch, p);
  }

  /** A task entry strictly newer than every stored entry for its digest
      survives the retention step and is what the next lookup returns, with
      or without its own architecture as filter. */
  lemma AddTaskThenLatest(idx: Index, md5: string, e: Entry, arch: Option<string>)
    requires forall x :: x in EntriesFor(idx, md5) ==> TimeKey(x) < TimeKey(e)
    requires Selected(e, arch)
    ensures e in AddTask(idx, md5, e)[md5]
    ensures GetLatestCachedTask(AddTask(idx, md5, e), md5, arch) == Some(e)
  {
    var r := AddTask(idx, md5, e)[md5];
    assert r == Retain(EntriesFor(idx, md5) + [e]);
    NewestKept(EntriesFor(idx, md5), e);
    var got := GetLatestCachedTask(AddTask(idx, md5, e), md5, arch);
    assert got.Some? && got.value in r;
    assert TimeKey(got.value) >= TimeKey(e);
  }

  /** An entry newer than every earlier one is kept by the retention step,
      and every other entry kept is older. */
  lemma NewestKept(before: seq<Entry>, e: Entry)
    requires forall x :: x in before ==> TimeKey(x) < TimeKey(e)
    ensures e in Retain(before + [e])
    ensures forall x :: x in Retain(before + [e]) && x != e ==> TimeKey(x) < TimeKey(e)
  {
    var s := before + [e];
    var r := Retain(s);
    if |s| > MaxTasksPerMd5 {
      var sorted := SortByTimeDesc(s);
      assert e in multiset(sorted);
      assert sorted[0] in multiset(s);
      assert sorted[0] == e by {
        var j :| 0 <= j < |sorted| && sorted[j] == e;
        assert TimeKey(sorted[0]) >= TimeKey(e);
        assert sorted[0] in s;
      }
      assert r[0] == e;
    }
    forall x | x in r && x != e ensures TimeKey(x) < TimeKey(e) {
      assert x in multiset(r);
      assert x in multiset(s);
      assert x in before;
    }
  }
}

=== FILE: replacement_properties.dfy ===
/** The component replacement of `process_apk_task`: every non-blank
    component is downloaded and verified before any is copied into
    `lib/<abi>`, so the unpacked APK is modified all-or-nothing. */
module ReplacementProperties {
  import opened Wrappers
  import opened Architecture
  import opened Tasks
  import opened Paths
  import opened Pipeline
  import opened PipelineProperties

  /** No step after the copies downloads, verifies or copies. */
  predicate AfterCopies(t: seq<Step>)
  {
    forall i :: 0 <= i < |t| ==> !FetchStep(t[i]) && !t[i].Copied?
  }

  /** A trace made of a copy-free head, a run of copies and a tail that
      neither fetches nor copies copies exactly those names, verifies what
      the head verifies, and never fetches after a copy. */
  lemma ShapeFacts(pre: seq<Step>, names: seq<string>, post: seq<Step>)
    requires NoCopies(pre) && AfterCopies(post)
    ensures var t := pre + CopySteps(names) + post;
      && Copies(t) == names
      && Verifications(t) == Verifications(pre)
      && FetchesBeforeCopies(t)
  {
    var c := CopySteps(names);
    var t := pre + c + post;
    CopiesAppend(pre + c, post);
    CopiesAppend(pre, c);
    VerificationsAppend(pre + c, post);
    VerificationsAppend(pre, c);
    NoCopiesHasNoCopies(pre);
    NoCopiesHasNoCopies(post);
    NoVerifiedSteps(post);
    CopiesOfCopySteps(names);
    forall i, j | 0 <= i < j < |t| && t[i].Copied?
      ensures !FetchStep(t[j])
    {
      if j < |pre| + |c| {
        assert t[j] == c[j - |pre|];
      } else {
        assert t[j] == post[j - |pre| - |c|];
      }
    }
  }

  /** What the replacement leaves behind. Copies happen only in a run whose
      every non-blank component passed, and then all of them are copied,
      in order, after all of them were verified and never before a
      download; `lib/<abi>` then holds the unpacked files with the verified
      ones over their slots, where the last name stored in a slot wins it
      (`libx.so` and `libx.so/` share one). Without copies `lib/<abi>` is as unpacked (or
      absent when the decode failed). */
  ghost predicate Replaced(soFiles: SoFiles, tools: Tools, work: string, arch: Arch, r: RunState)
  {
    var names := ValidNames(soFiles);
    var lib := tools.unpackedLib;
    && FetchesBeforeCopies(r.trace)
    && (Copies(r.trace) == [] || Copies(r.trace) == names)
    && (Copies(r.trace) != [] <==> tools.decodeOk && |names| > 0 && AllPass(soFiles, work, arch, tools))
    && (Copies(r.trace) == [] ==> r.lib == (if tools.decodeOk then lib else map[]))
    && (Copies(r.trace) != [] ==>
          && Verifications(r.trace) == names
          && (forall s :: s in r.lib <==> s in lib || Owner(names, s).Some?)
          && (forall s :: s in lib && Owner(names, s).None? ==> r.lib[s] == lib[s])
          && (forall s :: Owner(names, s).Some? ==>
                DetectSoArchitecture(DownloadPath(work, Owner(names, s).value), tools.describe(r.lib[s])) == Some(arch)))
    && (r.task.status == Complete ==> Copies(r.trace) == names)
  }

  /** A run that failed before any copy, with `lib/<abi>` as unpacked. */
  lemma FailedBeforeCopiesReplaced(soFiles: SoFiles, tools: Tools, work: string, arch: Arch, f: Failure, s: RunState, end: nat)
    requires NoCopies(s.trace)
    requires s.lib == (if tools.decodeOk then tools.unpackedLib else map[])
    requires !(tools.decodeOk && |ValidNames(soFiles)| > 0 && AllPass(soFiles, work, arch, tools))
    ensures Replaced(soFiles, tools, work, arch, RecordFailure(f, s, end))
  {
    ShapeFacts(s.trace, [], [FailedWith(f)]);
    assert s.trace + CopySteps([]) + [FailedWith(f)] == RecordFailure(f, s, end).trace;
  }

  lemma DecodeFailedReplaced(task: TaskInfo, soFiles: SoFiles, tools: Tools)
    requires !tools.decodeOk
    ensures Replaced(soFiles, tools, WorkPath(task), task.soArchitecture, ProcessApkTask(task, soFiles, tools))
  {
    RunDecodeFailed(task, soFiles, tools);
    FailedBeforeCopiesReplaced(soFiles, tools, WorkPath(task), task.soArchitecture, DecodeFailed, Begin(task, tools), tools.clock.end);
  }

  lemma NoValidReplaced(task: TaskInfo, soFiles: SoFiles, tools: Tools)
    requires tools.decodeOk && |ValidNames(soFiles)| == 0
    ensures Replaced(soFiles, tools, WorkPath(task), task.soArchitecture, ProcessApkTask(task, soFiles, tools))
  {
    RunNoValid(task, soFiles, tools);
    UnpackedTrace(task, tools);
    assert NoCopies([Started, Decoded]);
    FailedBeforeCopiesReplaced(soFiles, tools, WorkPath(task), task.soArchitecture, NoValidSoFiles, Unpacked(task, tools), tools.clock.end);
  }

  lemma VerifyFailedReplaced(task: TaskInfo, soFiles: SoFiles, tools: Tools)
    requires tools.decodeOk && |ValidNames(soFiles)| > 0
    requires VerifyAll(soFiles, WorkPath(task), task.soArchitecture, tools).Err?
    ensures Replaced(soFiles, tools, WorkPath(task), task.soArchitecture, ProcessApkTask(task, soFiles, tools))
  {
    var work, arch := WorkPath(task), task.soArchitecture;
    var a := VerifyAll(soFiles, work, arch, tools).error;
    RunVerifyFailed(task, soFiles, tools);
    UnpackedTrace(task, tools);
    VerifyAllErr(soFiles, work, arch, tools);
    VerifyAllOkIff(soFiles, work, arch, tools);
    var u := Unpacked(task, tools);
    var pre := u.trace + a.steps;
    assert NoCopies(pre) by {
      forall i | 0 <= i < |pre| ensures !pre[i].Copied? {
        if i >= 2 {
          assert pre[i] == a.steps[i - 2];
          assert FetchStep(a.steps[i - 2]);
        }
      }
    }
    FailedBeforeCopiesReplaced(soFiles, tools, work, arch, a.failure, u.(trace := pre), tools.clock.end);
  }

  /** The committed state and its trace decomposition. */
  lemma CommittedShape(task: TaskInfo, soFiles: SoFiles, tools: Tools)
    requires tools.decodeOk && VerifyAll(soFiles, WorkPath(task), task.soArchitecture, tools).Ok?
    ensures var v := VerifyAll(soFiles, WorkPath(task), task.soArchitecture, tools).value;
      && (forall n :: n in ValidNames(soFiles) ==> n in v.downloads)
      && var c := Committed(Unpacked(task, tools), soFiles, v);
      && c.trace == ([Started, Decoded] + v.steps) + CopySteps(ValidNames(soFiles))
      && NoCopies([Started, Decoded] + v.steps)
      && Verifications([Started, Decoded] + v.steps) == ValidNames(soFiles)
      && AllPass(soFiles, WorkPath(task), task.soArchitecture, tools)
      && c.lib == Commit(soFiles, v.downloads, tools.unpackedLib)
  {
    var work, arch := WorkPath(task), task.soArchitecture;
    var v := VerifyAll(soFiles, work, arch, tools).value;
    UnpackedTrace(task, tools);
    VerifyAllOkKeys(soFiles, work, arch, tools);
    VerifyAllOkSteps(soFiles, work, arch, tools);
    var pre := [Started, Decoded] + v.steps;
    assert NoCopies(pre) by {
      forall i | 0 <= i < |pre| ensures !pre[i].Copied? {
        if i >= 2 {
          assert pre[i] == v.steps[i - 2];
          assert FetchStep(v.steps[i - 2]);
        }
      }
    }
    VerificationsAppend([Started, Decoded], v.steps);
    assert Verifications([Started, Decoded]) == [];
  }

  /** The copy loop over a completed verification leaves the unpacked files
      with each verified slot overwritten by a file classified as the
      requested ABI. */
  lemma CommittedLib(soFiles: SoFiles, work: string, arch: Arch, tools: Tools)
    requires VerifyAll(soFiles, work, arch, tools).Ok?
    ensures var v := VerifyAll(soFiles, work, arch, tools).value;
      && (forall n :: n in ValidNames(soFiles) ==> n in v.downloads)
      && var lib, names := Commit(soFiles, v.downloads, tools.unpackedLib), ValidNames(soFiles);
      && (forall s :: s in lib <==> s in tools.unpackedLib || Owner(names, s).Some?)
      && (forall s :: s in tools.unpackedLib && Owner(names, s).None? ==> lib[s] == tools.unpackedLib[s])
      && (forall s :: Owner(names, s).Some? ==>
            DetectSoArchitecture(DownloadPath(work, Owner(names, s).value), tools.describe(lib[s])) == Some(arch))
  {
    var v := VerifyAll(soFiles, work, arch, tools).value;
    VerifyAllOkKeys(soFiles, work, arch, tools);
    VerifyAllOkArchitecture(soFiles, work, arch, tools);
    CommitContents(soFiles, v.downloads, tools.unpackedLib);
  }

  /** Packaging and the failure handler neither fetch nor copy, and leave
      `lib/<abi>` as the copy loop left it. */
  lemma PackagingKeepsShape(c: RunState, tools: Tools, pre: seq<Step>, names: seq<string>)
    requires c.trace == pre + CopySteps(names) && NoCopies(pre)
    ensures var a := Repackage(c, tools);
      var r := if a.Finished? then a.state else RecordFailure(a.failure, a.state, tools.clock.end);
      && Copies(r.trace) == names
      && Verifications(r.trace) == Verifications(pre)
      && FetchesBeforeCopies(r.trace)
      && r.lib == c.lib
  {
    var a := Repackage(c, tools);
    if a.Raised? {
      RaisedPackagingShape(c, tools, pre, names);
    } else {
      RepackageFinished(c, tools);
      ShapeFacts(pre, names, [Built, Aligned, Signed, IndexSaved, Completed]);
    }
  }

  lemma RaisedPackagingShape(c: RunState, tools: Tools, pre: seq<Step>, names: seq<string>)
    requires c.trace == pre + CopySteps(names) && NoCopies(pre)
    requires Repackage(c, tools).Raised?
    ensures var a := Repackage(c, tools);
      var r := RecordFailure(a.failure, a.state, tools.clock.end);
      && Copies(r.trace) == names
      && Verifications(r.trace) == Verifications(pre)
      && FetchesBeforeCopies(r.trace)
      && r.lib == c.lib
  {
    var a := Repackage(c, tools);
    RepackageRaised(c, tools);
    var post := a.state.trace[|c.trace|..] + [FailedWith(a.failure)];
    PackagingTail(c.trace, a.state.trace, a.failure);
    ShapeFacts(pre, names, post);
    assert RecordFailure(a.failure, a.state, tools.clock.end).trace == c.trace + post;
  }

  /** What a raising packaging stage appends, with the failure step after
      it, neither fetches nor copies. */
  lemma PackagingTail(base: seq<Step>, t: seq<Step>, f: Failure)
    requires |t| >= |base| && t[..|base|] == base
    requires forall i :: |base| <= i < |t| ==> PackagingStep(t[i])
    ensures AfterCopies(t[|base|..] + [FailedWith(f)])
    ensures t + [FailedWith(f)] == base + (t[|base|..] + [FailedWith(f)])
  {
    var post := t[|base|..] + [FailedWith(f)];
    forall i | 0 <= i < |post| ensures !FetchStep(post[i]) && !post[i].Copied? {
      if i < |post| - 1 {
        assert post[i] == t[|base| + i];
      }
    }
    assert t == base + t[|base|..];
  }

  lemma VerifiedReplaced(task: TaskInfo, soFiles: SoFiles, tools: Tools)
    requires tools.decodeOk && |ValidNames(soFiles)| > 0
    requires VerifyAll(soFiles, WorkPath(task), task.soArchitecture, tools).Ok?
    ensures Replaced(soFiles, tools, WorkPath(task), task.soArchitecture, ProcessApkTask(task, soFiles, tools))
  {
    var v := VerifyAll(soFiles, WorkPath(task), task.soArchitecture, tools).value;
    RunVerified(task, soFiles, tools);
    CommittedShape(task, soFiles, tools);
    CommittedLib(soFiles, WorkPath(task), task.soArchitecture, tools);
    var c := Committed(Unpacked(task, tools), soFiles, v);
    PackagingKeepsShape(c, tools, [Started, Decoded] + v.steps, ValidNames(soFiles));
  }

  /** `process_apk_task` verifies every component before it copies any, and
      copies either all non-blank components or none. */
  lemma ProcessApkTaskVerifyThenCommit(task: TaskInfo, soFiles: SoFiles, tools: Tools)
    ensures Replaced(soFiles, tools, WorkPath(task), task.soArchitecture, ProcessApkTask(task, soFiles, tools))
  {
    if !tools.decodeOk {
      DecodeFailedReplaced(task, soFiles, tools);
    } else if |ValidNames(soFiles)| == 0 {
      NoValidReplaced(task, soFiles, tools);
    } else if VerifyAll(soFiles, WorkPath(task), task.soArchitecture, tools).Err? {
      VerifyFailedReplaced(task, soFiles, tools);
    } else {
      VerifiedReplaced(task, soFiles, tools);
    }
  }

  /** With distinct names (a JSON object's keys), every non-blank name's
      slot is in a modified `lib/<abi>`, and it holds what the download of
      the last non-blank entry stored in that slot returned. */
  lemma ProcessApkTaskLibContents(task: TaskInfo, soFiles: SoFiles, tools: Tools)
    requires UniqueNames(soFiles)
    ensures var r := ProcessApkTask(task, soFiles, tools);
      Copies(r.trace) != [] ==>
        forall i :: 0 <= i < |soFiles| && IsValid(soFiles[i]) ==>
          && Slot(soFiles[i].0) in r.lib
          && ((forall j :: i < j < |soFiles| && IsValid(soFiles[j]) ==> Slot(soFiles[j].0) != Slot(soFiles[i].0)) ==>
                Fetch(soFiles[i].0, soFiles[i].1, tools) == Some(r.lib[Slot(soFiles[i].0)]))
  {
    var work, arch := WorkPath(task), task.soArchitecture;
    ProcessApkTaskVerifyThenCommit(task, soFiles, tools);
    var r := ProcessApkTask(task, soFiles, tools);
    if Copies(r.trace) != [] {
      VerifyAllOkIff(soFiles, work, arch, tools);
      var v := VerifyAll(soFiles, work, arch, tools).value;
      CommittedLibIsRunLib(task, soFiles, tools);
      VerifyAllOkKeys(soFiles, work, arch, tools);
      CommitContents(soFiles, v.downloads, tools.unpackedLib);
      VerifyAllOkDownloads(soFiles, work, arch, tools);
      ValidNamesMembers(soFiles);
      forall i | 0 <= i < |soFiles| && IsValid(soFiles[i])
        ensures && Slot(soFiles[i].0) in r.lib
                && ((forall j :: i < j < |soFiles| && IsValid(soFiles[j]) ==> Slot(soFiles[j].0) != Slot(soFiles[i].0)) ==>
                      Fetch(soFiles[i].0, soFiles[i].1, tools) == Some(r.lib[Slot(soFiles[i].0)]))
      {
        var names := ValidNames(soFiles);
        assert soFiles[i].0 in names;
        assert Owner(names, Slot(soFiles[i].0)).Some? by {
          var k :| 0 <= k < |names| && names[k] == soFiles[i].0;
        }
        if forall j :: i < j < |soFiles| && IsValid(soFiles[j]) ==> Slot(soFiles[j].0) != Slot(soFiles[i].0) {
          LastEntryOwnsSlot(soFiles, i);
        }
      }
    }
  }

  /** A run that copied ends with the `lib/<abi>` the copy loop left. */
  lemma CommittedLibIsRunLib(task: TaskInfo, soFiles: SoFiles, tools: Tools)
    requires tools.decodeOk && |ValidNames(soFiles)| > 0
    requires VerifyAll(soFiles, WorkPath(task), task.soArchitecture, tools).Ok?
    ensures var v := VerifyAll(soFiles, WorkPath(task), task.soArchitecture, tools).value;
      && (forall n :: n in ValidNames(soFiles) ==> n in v.downloads)
      && ProcessApkTask(task, soFiles, tools).lib == Commit(soFiles, v.downloads, tools.unpackedLib)
  {
    var v := VerifyAll(soFiles, WorkPath(task), task.soArchitecture, tools).value;
    RunVerified(task, soFiles, tools);
    CommittedShape(task, soFiles, tools);
    var c := Committed(Unpacked(task, tools), soFiles, v);
    PackagingKeepsShape(c, tools, [Started, Decoded] + v.steps, ValidNames(soFiles));
  }

  lemma VerifiedRunSucceedsIff(task: TaskInfo, soFiles: SoFiles, tools: Tools)
    requires tools.decodeOk && |ValidNames(soFiles)| > 0
    requires VerifyAll(soFiles, WorkPath(task), task.soArchitecture, tools).Ok?
    ensures var r := ProcessApkTask(task, soFiles, tools);
      r.task.status == Complete <==> PackagingSucceeds(tools, r.lib) && tools.saveError.None?
  {
    var v := VerifyAll(soFiles, WorkPath(task), task.soArchitecture, tools).value;
    RunVerified(task, soFiles, tools);
    CommittedShape(task, soFiles, tools);
    var c := Committed(Unpacked(task, tools), soFiles, v);
    PackagingKeepsShape(c, tools, [Started, Decoded] + v.steps, ValidNames(soFiles));
    if Repackage(c, tools).Raised? {
      RepackageRaised(c, tools);
    } else {
      RepackageFinished(c, tools);
    }
  }

  /** A run completes exactly when the decode succeeds, some URL is
      non-blank, every non-blank component passes, the modified APK
      rebuilds, aligns and signs, and the index is saved. */
  lemma ProcessApkTaskSucceedsIff(task: TaskInfo, soFiles: SoFiles, tools: Tools)
    ensures var r := ProcessApkTask(task, soFiles, tools);
      r.task.status == Complete <==>
        && tools.decodeOk && |ValidNames(soFiles)| > 0
        && AllPass(soFiles, WorkPath(task), task.soArchitecture, tools)
        && PackagingSucceeds(tools, r.lib) && tools.saveError.None?
  {
    VerifyAllOkIff(soFiles, WorkPath(task), task.soArchitecture, tools);
    if !tools.decodeOk {
      RunDecodeFailed(task, soFiles, tools);
    } else if |ValidNames(soFiles)| == 0 {
      RunNoValid(task, soFiles, tools);
    } else if VerifyAll(soFiles, WorkPath(task), task.soArchitecture, tools).Err? {
      RunVerifyFailed(task, soFiles, tools);
    } else {
      VerifiedRunSucceedsIff(task, soFiles, tools);
    }
  }

  /** A non-blank component whose file is not classified as the requested
      ABI fails the task, and then nothing is copied into `lib/<abi>`. */
  lemma WrongArchitectureFails(task: TaskInfo, soFiles: SoFiles, tools: Tools, i: nat)
    requires i < |soFiles| && IsValid(soFiles[i])
    requires Fetch(soFiles[i].0, soFiles[i].1, tools).Some?
    requires DetectSoArchitecture(DownloadPath(WorkPath(task), soFiles[i].0),
                                  tools.describe(Fetch(soFiles[i].0, soFiles[i].1, tools).value)) != Some(task.soArchitecture)
    ensures var r := ProcessApkTask(task, soFiles, tools);
      && r.task.status == Failed
      && Copies(r.trace) == []
      && r.lib == (if tools.decodeOk then tools.unpackedLib else map[])
  {
    assert !Passes(soFiles[i], WorkPath(task), task.soArchitecture, tools);
    ProcessApkTaskVerifyThenCommit(task, soFiles, tools);
    ProcessApkTaskSucceedsIff(task, soFiles, tools);
    var r := ProcessApkTask(task, soFiles, tools);
    if r.task.status != Failed {
      if !tools.decodeOk {
        RunDecodeFailed(task, soFiles, tools);
      } else if |ValidNames(soFiles)| == 0 {
        RunNoValid(task, soFiles, tools);
      } else {
        VerifyAllOkIff(soFiles, WorkPath(task), task.soArchitecture, tools);
        RunVerifyFailed(task, soFiles, tools);
      }
    }
  }
}

=== FILE: tasks.dfy ===
/** The task record the server keeps in memory and its status values. */
module Tasks {
  import opened Wrappers
  import opened Architecture

  datatype TaskStatus = Pending | Processing | Complete | Failed

  /** The task fields the processing logic reads or writes. Timestamps are
      clock readings; durations are their differences. */
  datatype TaskInfo = TaskInfo(
    taskId: string,
    status: TaskStatus,
    filename: string,
    pkgName: string,
    fileMd5Before: string,
    fileMd5After: Option<string>,
    soMd5Before: Option<map<string, string>>,
    soMd5After: Option<map<string, string>>,
    soArchitecture: Arch,
    realSoArchitecture: Option<Arch>,
    startTimestamp: Option<nat>,
    endTimestamp: Option<nat>,
    totalConsumeSeconds: Option<int>,
    reason: Option<string>)

  /** The moves a task's status may make; COMPLETE and FAILED are final. */
  predicate StatusStep(from: TaskStatus, to: TaskStatus)
  {
    || (from == Pending && to == Processing)
    || (from == Processing && to == Complete)
    || (from == Processing && to == Failed)
  }

  predicate Terminal(s: TaskStatus)
  {
    s == Complete || s == Failed
  }

  /** Which fields are set in each status: a pending task has only its
      creation fields; a completed one has its digests, its replacement
      record and a duration matching its stamps; a failed one has a reason
      and an end stamp, and any duration it has matches its stamps. */
  predicate Consistent(t: TaskInfo)
  {
    match t.status
    case Pending =>
      && t.fileMd5After.None? && t.soMd5Before.None? && t.soMd5After.None?
      && t.realSoArchitecture.None? && t.startTimestamp.None? && t.endTimestamp.None?
      && t.totalConsumeSeconds.None? && t.reason.None?
    case Processing =>
      && t.startTimestamp.Some? && t.endTimestamp.None?
      && t.totalConsumeSeconds.None? && t.reason.None?
    case Complete =>
      && t.fileMd5After.Some?
      && t.soMd5Before.Some? && t.soMd5After.Some?
      && t.soMd5Before.value.Keys == t.soMd5After.value.Keys
      && t.realSoArchitecture == Some(t.soArchitecture)
      && t.startTimestamp.Some? && t.endTimestamp.Some?
      && t.totalConsumeSeconds == Some(t.endTimestamp.value - t.startTimestamp.value)
      && t.reason.None?
    case Failed =>
      && t.endTimestamp.Some? && t.reason.Some?
      && (t.totalConsumeSeconds.Some? ==>
            t.startTimestamp.Some? && t.totalConsumeSeconds == Some(t.endTimestamp.value - t.startTimestamp.value))
  }

  /** The fields fixed when the task is created. */
  predicate SameRequest(a: TaskInfo, b: TaskInfo)
  {
    && a.taskId == b.taskId && a.filename == b.filename && a.pkgName == b.pkgName
    && a.fileMd5Before == b.fileMd5Before && a.soArchitecture == b.soArchitecture
  }

  /** `TaskInfo(..., status=TaskStatus.PENDING, ...)` as both endpoints build it. */
  function NewTask(taskId: string, filename: string, pkgName: string, fileMd5: string, arch: Arch): (t: TaskInfo)
    ensures t.status == Pending && Consistent(t)
    ensures t.taskId == taskId && t.filename == filename && t.pkgName == pkgName
    ensures t.fileMd5Before == fileMd5 && t.soArchitecture == arch
  {
    TaskInfo(taskId, Pending, filename, pkgName, fileMd5, None, None, None, arch, None, None, None, None, None)
  }
}

=== FILE: text.dfy ===
/** Character and string helpers with the meaning Python gives them for the
    inputs the server sees: `str.lower()` on ASCII letters, the `in` substring
    test, and `str.strip()` emptiness. */
module Text {

  /** Lower-case of one character; only ASCII `A`..`Z` change. */
  function LowerChar(c: char): char
  {
    if 'A' <= c <= 'Z' then (c as int + 32) as char else c
  }

  /** `s.lower()` restricted to ASCII letters. */
  function Lower(s: string): (r: string)
    ensures |r| == |s|
    ensures forall i :: 0 <= i < |s| ==> r[i] == LowerChar(s[i])
  {
    seq(|s|, i requires 0 <= i < |s| => LowerChar(s[i]))
  }

  lemma LowerIdempotent(s: string)
    ensures Lower(Lower(s)) == Lower(s)
  {
  }

  /** `pat` occurs in `s` starting at position `i`. */
  ghost predicate OccursAt(s: string, pat: string, i: int)
  {
    0 <= i && i + |pat| <= |s| && s[i..i + |pat|] == pat
  }

  /** Python's `pat in s` for strings, computed by scanning prefixes. */
  function Contains(s: string, pat: string): bool
    decreases |s|
  {
    if pat <= s then true
    else if |s| == 0 then false
    else Contains(s[1..], pat)
  }

  /** The scan finds `pat` exactly when it occurs at some position. */
  lemma {:induction false} ContainsIff(s: string, pat: string)
    ensures Contains(s, pat) <==> exists i :: OccursAt(s, pat, i)
    decreases |s|
  {
    if pat <= s {
      assert s[0..|pat|] == pat;
      assert OccursAt(s, pat, 0);
    } else if |s| == 0 {
    } else {
      ContainsIff(s[1..], pat);
      if Contains(s[1..], pat) {
        var i :| OccursAt(s[1..], pat, i);
        assert s[1..][i..i + |pat|] == s[i + 1..i + 1 + |pat|];
        assert OccursAt(s, pat, i + 1);
      }
      forall i | OccursAt(s, pat, i) && i > 0
        ensures Contains(s[1..], pat)
      {
        assert s[1..][i - 1..i - 1 + |pat|] == s[i..i + |pat|];
        assert OccursAt(s[1..], pat, i - 1);
      }
    }
  }

  /** A pattern whose prefix is `pre` occurs only where `pre` also occurs. */
  lemma ContainsPrefixOf(s: string, pat: string, pre: string)
    requires pre <= pat
    requires Contains(s, pat)
    ensures Contains(s, pre)
  {
    ContainsIff(s, pat);
    var i :| OccursAt(s, pat, i);
    assert s[i..i + |pre|] == pat[..|pre|] == pre;
    assert OccursAt(s, pre, i);
    ContainsIff(s, pre);
  }

  /** Lower-casing works character by character, so it distributes over
      concatenation. */
  lemma LowerAppend(a: string, b: string)
    ensures Lower(a + b) == Lower(a) + Lower(b)
  {
  }

  /** Lower-casing never produces a character that is not a letter unless
      that character was already there. */
  lemma LowerAvoids(s: string, c: char)
    requires !('A' <= c <= 'Z') && !('a' <= c <= 'z') && c !in s
    ensures c !in Lower(s)
  {
    forall i | 0 <= i < |s| ensures Lower(s)[i] != c {
      assert s[i] != c;
    }
  }

  /** A pattern holding a character that `s` lacks does not occur in `s`. */
  lemma AbsentCharRulesOut(s: string, pat: string, c: char)
    requires c in pat && c !in s
    ensures !Contains(s, pat)
  {
    ContainsIff(s, pat);
  }

  /** An occurrence in `a` is an occurrence in `a + b`. */
  lemma ContainsInLeft(a: string, b: string, pat: string)
    requires Contains(a, pat)
    ensures Contains(a + b, pat)
  {
    ContainsIff(a, pat);
    var i :| OccursAt(a, pat, i);
    assert (a + b)[i..i + |pat|] == a[i..i + |pat|];
    assert OccursAt(a + b, pat, i);
    ContainsIff(a + b, pat);
  }

  /** An occurrence in `b` is an occurrence in `a + b`. */
  lemma ContainsInRight(a: string, b: string, pat: string)
    requires Contains(b, pat)
    ensures Contains(a + b, pat)
  {
    ContainsIff(b, pat);
    var i :| OccursAt(b, pat, i);
    assert (a + b)[|a| + i..|a| + i + |pat|] == b[i..i + |pat|];
    assert OccursAt(a + b, pat, |a| + i);
    ContainsIff(a + b, pat);
  }

  /** An occurrence in `a + sep + b` that cannot touch `sep` lies in `a` or
      in `b`. */
  lemma ContainsSplits(a: string, sep: string, b: string, pat: string)
    requires |pat| > 0 && |sep| > 0
    requires forall k :: 0 <= k < |pat| ==> pat[k] !in sep
    requires Contains(a + sep + b, pat)
    ensures Contains(a, pat) || Contains(b, pat)
  {
    ContainsIff(a + sep + b, pat);
    var i :| OccursAt(a + sep + b, pat, i);
    OccurrenceSplits(a, sep, b, pat, i);
  }

  lemma OccurrenceSplits(a: string, sep: string, b: string, pat: string, i: int)
    requires |pat| > 0 && |sep| > 0
    requires forall k :: 0 <= k < |pat| ==> pat[k] !in sep
    requires OccursAt(a + sep + b, pat, i)
    ensures Contains(a, pat) || Contains(b, pat)
  {
    var s := a + sep + b;
    var n := |pat|;
    if i + n <= |a| {
      assert a[i..i + n] == s[i..i + n];
      assert OccursAt(a, pat, i);
      ContainsIff(a, pat);
    } else if i >= |a| + |sep| {
      var k := i - |a| - |sep|;
      assert b[k..k + n] == s[i..i + n];
      assert OccursAt(b, pat, k);
      ContainsIff(b, pat);
    } else {
      StraddleHitsSeparator(a, sep, b, pat, i, if i >= |a| then i else |a|);
      assert false;
    }
  }

  /** A character of an occurrence that lies inside the separator is a
      separator character. */
  lemma StraddleHitsSeparator(a: string, sep: string, b: string, pat: string, i: int, p: int)
    requires OccursAt(a + sep + b, pat, i)
    requires i <= p < i + |pat| && |a| <= p < |a| + |sep|
    ensures pat[p - i] in sep
  {
    assert (a + sep + b)[i..i + |pat|][p - i] == (a + sep + b)[p];
  }

  /** A pattern none of whose characters appears in the separator occurs in
      `a + sep + b` exactly when it occurs in `a` or in `b`. */
  lemma ContainsAcross(a: string, sep: string, b: string, pat: string)
    requires |pat| > 0 && |sep| > 0
    requires forall k :: 0 <= k < |pat| ==> pat[k] !in sep
    ensures Contains(a + sep + b, pat) <==> Contains(a, pat) || Contains(b, pat)
  {
    if Contains(a, pat) {
      ContainsInLeft(a, sep + b, pat);
      assert a + sep + b == a + (sep + b);
    }
    if Contains(b, pat) {
      ContainsInRight(a + sep, b, pat);
    }
    if Contains(a + sep + b, pat) {
      ContainsSplits(a, sep, b, pat);
    }
  }

  /** Python's `str.isspace()` for one character: the Unicode whitespace set. */
  predicate IsSpace(c: char)
  {
    || '\U{0009}' <= c <= '\U{000D}'
    || '\U{001C}' <= c <= '\U{0020}'
    || c == '\U{0085}' || c == '\U{00A0}' || c == '\U{1680}'
    || '\U{2000}' <= c <= '\U{200A}'
    || c == '\U{2028}' || c == '\U{2029}' || c == '\U{202F}'
    || c == '\U{205F}' || c == '\U{3000}'
  }

  /** `not v or not v.strip()`: the string is empty or all whitespace. */
  predicate IsBlank(s: string)
  {
    forall i :: 0 <= i < |s| ==> IsSpace(s[i])
  }
}

=== FILE: wrappers.dfy ===
/** Optional values and results with an error branch, used wherever the
    server returns `None` or raises. */
module Wrappers {

  datatype Option<+T> = None | Some(value: T)

  datatype Result<+T, +E> = Ok(value: T) | Err(error: E)
}
